=== FILE: README.md ===
# Task manager: static server and task-list state, modelled in Dafny

The repository is a small single-page task manager. A ~70-line Node server
(`server.js`) serves the built bundle from `dist` with a single-page-application
fallback, and a React UI (`src/App.tsx`, `src/components/TaskForm.tsx`) keeps a
list of tasks in step with a hosted store. This project models the three pieces
that make decisions:

- **The request resolver** (`server.js:27-70`), as a pure function `StaticServer.Resolve`
  from a request, the server's directory and an abstract file system
  (`map<string, seq<byte>>`, where a missing key stands for every failed read) to
  the one response written: status 200, 403 or 404, an optional Content-Type and a body.
  It is built from explicit models of the library calls it relies on:
  - `UrlPath`: the pathname of `new URL(req.url, base)`, following the path
    states of the WHATWG URL Standard for the `http` scheme. The query and
    fragment are cut off. Backslashes count as slashes. The authority of a
    `//host/...` target is skipped. Dot segments are removed as they are read,
    including their `%2e` spellings.
  - `PosixPath`: Node's `path.join`, `path.normalize` and `path.extname` on POSIX.
  - `StaticServer`: the MIME table, the root-to-`/index.html` substitution, the
    prefix guard, the read, and the fallback that checks the raw `req.url` for a `.`.
- **The task list** (`src/App.tsx`), as a class `TaskApp.App` with the fields
  `tasks`, `loading` and `editingTask`. Each handler takes the store's reply as an
  input and returns the store request it sends. The list updates are the pure
  functions `Tasks.ReplaceById` (the `map`) and `Tasks.RemoveById` (the `filter`),
  with lemmas about them.
- **The form** (`src/components/TaskForm.tsx`), as a class `TaskFormState.TaskForm`
  with its four fields and the `editingTask` it was rendered with. It has the
  effect that loads a task into the fields, the input handlers and the submit handler.

Main results:

- `StaticServer.LookupBelowRoot`: every request target is looked up at the asset
  root itself or strictly below it after a `/`. The URL parser has already removed
  every dot segment, and `path.join` keeps the normal form of the root as a prefix.
  So the traversal guard at `server.js:39` can never refuse, and no request is
  ever answered 403 (`StaticServer.NeverForbidden`). The comment above the guard
  (`server.js:38`) calls it a defence against directory traversal. A target such
  as `/../secret.env` never reaches it as a climb, because the URL parser pins it
  to `/secret.env` first (`UrlPath.ClimbIsPinned`).
- An ordinary target is looked up where it says: `/a/b.css?v=1` names
  `<asset root>/a/b.css` (`StaticServer.OrdinaryTargetLookup`), and
  `/style.css?v=123`, the example in the comment at `server.js:31`, is served as
  the style sheet with `text/css` (`StaticServer.StyleSheetServed`).
- Dot segments are removed as the URL is read: `..` removes the segment before it
  (`UrlPath.DoubleDotRemoves`), so `/a/../b.css` names `<asset root>/b.css`
  (`StaticServer.ClimbedStyleSheetLookup`). `path.join` removes a climb in the
  directory the same way (`PosixPath.ClimbRemovesName`, `StaticServer.ClimbingDirRoot`).
- A target that starts with `//` names a host, which takes no part in the
  lookup: `//evil/x.css` names `<asset root>/x.css` (`UrlPath.AuthoritySkipped`,
  `StaticServer.HostTargetLookup`). A backslash separates segments as a slash
  does (`UrlPath.BackslashSeparates`).
- The fallback looks for a `.` anywhere in the raw target, query included. So
  `/dashboard?v=1.2` is not found even when the shell exists, although
  `/dashboard` gets the shell (`StaticServer.QueryDotDefeatsFallback`).
- Cancelling an edit, or a successful update, only clears `editingTask`. The form
  keeps the edited task's values and is then in create mode
  (`TaskFormState.TaskForm.ReceiveEditingTask`, `TaskFormState.CancelKeepsFields`).

## Model

| member | source | states |
|---|---|---|
| `StaticServer.Resolve` | server.js:27-70 | Every request gets exactly one response. Its status is 200, 403 or 404. A 200 carries a content type from the table or the binary default, and a body that is the bytes of some file. A 403 is `403: Forbidden` with no header. A 404 is `text/plain` `404: File not found`. |
| `StaticServer.ContentType` | server.js:49 | The type is one of the nine table values or `application/octet-stream`. The default is given exactly when the extension is not a key of the table. |
| `StaticServer.ExtensionCaseMatters` | server.js:15-25 | Keys are matched exactly: `.png` is `image/png`, `.PNG` is `application/octet-stream`. |
| `StaticServer.LookupBelowRoot` | server.js:36-39 | For every directory and target, the joined file path starts with the joined asset root and either equals it or continues with `/`. |
| `StaticServer.NeverForbidden` | server.js:39-43 | No request, host or file system yields 403. |
| `StaticServer.GuardReadsNothing` | server.js:39-43 | When a path fails the prefix guard, the answer is 403 and is the same for every file system, so no file is read. |
| `StaticServer.ExistingFileServed` | server.js:45-51 | When the looked-up file exists, the response is 200 with exactly its bytes and the table type of its extension. |
| `StaticServer.ShellFallback` | server.js:53-63 | When the file is missing or the URL cannot be parsed, the raw target has no `.` and the shell exists, the response is 200 `text/html` with the shell's bytes. |
| `StaticServer.DottedMissNotFound` | server.js:53-67 | When the file is missing or the URL cannot be parsed and the raw target contains a `.` anywhere, the response is the 404. |
| `StaticServer.MissingShellNotFound` | server.js:61-67 | When the file is missing and the shell is missing too, the response is the 404. |
| `StaticServer.QueryDotDefeatsFallback` | server.js:57-59 | A missing path followed by a query that contains a `.` is answered 404, whatever the shell. |
| `StaticServer.JoinBelowRoot` | server.js:36 | `Join`: joining `dir`, `dist` and a non-empty tail is normalising the joined root, a `/` and the tail. |
| `StaticServer.RootJoinedShape` | server.js:39 | `AssetRoot`: the asset root is the normal form of `dir` and `dist` joined, whose last segment is a name. |
| `StaticServer.RootJoinedForm` | server.js:39 | `dir` and `dist` joined, before normalisation, is `dir/dist`, or `dist` alone when `dir` is empty. |
| `StaticServer.ClimbingDirRoot` | server.js:39 | `AssetRoot`: for a non-empty `d` and a name `n`, the directory `d/n/..` has the same asset root as `d`. |
| `StaticServer.NamedFileBelowRoot` | server.js:61 | `ShellPath` and `Join`: a single name (no slash, not `.` or `..`) joined under `dir` and `dist` is the asset root, a `/` and that name. |
| `StaticServer.OrdinaryTargetLookup` | server.js:31-36 | `FilePath` and `LookupPath`: a plain target `/p`, where `p` is not empty and does not start with `/` (that would name a host), with or without a query, is looked up as the asset root, a `/`, and the non-empty segments of `p`, plus a trailing `/` when `p` has one. |
| `StaticServer.NamedFileServed` | server.js:31-51 | A target naming one file, a non-empty plain segment without `?`, `#` or `\`, with any query, is looked up as the asset root, a `/` and the name. When that file exists it is served with 200, its bytes and the type of the name's extension. |
| `StaticServer.StyleSheetServed` | server.js:31-51 | `/style.css?v=123` is looked up as the asset root followed by `/style.css`. When that file exists it is served with 200, `text/css` and its bytes. |
| `StaticServer.ClimbedTargetLookup` | server.js:32-36 | `LookupPath`: a target `/a/../b`, for non-empty plain segments `a` and `b` (no slash, not a dot segment, no `?`, `#` or `\`), is looked up as the asset root, a `/` and `b`. |
| `StaticServer.ClimbedStyleSheetLookup` | server.js:32-36 | `/a/../b.css` is looked up as the asset root followed by `/b.css`. |
| `StaticServer.HostTargetLookup` | server.js:32-36 | For a non-empty host `h` without `/`, `?`, `#` or `\`, and a non-empty plain segment `name` without `?`, `#` or `\`, the target `//h/name` is looked up as the asset root, a `/` and `name`. |
| `StaticServer.ServeReadsTwoFiles` | server.js:39-51 | `Serve`: two file systems that agree on the looked-up file and the shell get the same answer, so no other file is read. |
| `StaticServer.FallbackCases` | server.js:53-67 | `Fallback`: the answer is the 404 or 200 `text/html` with the shell's bytes. It is 200 exactly when the raw target has no `.` and the shell exists. |
| `StaticServer.RootTargetIsShell` | server.js:35-36 | `/`, followed by any query or fragment, is looked up as `dist/index.html`. |
| `StaticServer.RootServesShell` | server.js:35-51 | `/` with any query gets 200 `text/html` with the shell's bytes, or the 404 when the shell is missing. |
| `StaticServer.ShellBelowRoot` | server.js:61 | The shell path is the asset root followed by `/index.html`. |
| `StaticServer.ShellIsHtml` | server.js:16 | The shell's extension maps to `text/html`. |
| `StaticServer.QueryNotLookedUp` | server.js:31-36 | Adding `?query` to a path without `?` or `#` does not change the file looked up. |
| `StaticServer.QueryKeepsFile` | server.js:31-51 | An existing file is served the same with or without a query string. |
| `UrlPath.PathPart` | server.js:32 | The path part is the longest prefix of the target without `?` or `#`. |
| `UrlPath.Walk` | server.js:32 | Reading segments leaves only segments that are slash-free and not dot segments, and at least one segment when there was input to read. |
| `UrlPath.WalkPlain` | server.js:32 | `Walk`: segments that are neither dot segments nor contain a slash are all kept, in order, after the path read so far. |
| `UrlPath.DoubleDotRemoves` | server.js:32 | `Walk`: a double-dot segment, in any of its spellings, removes the segment read just before it. When nothing follows, the path ends in an empty segment instead. |
| `UrlPath.SingleDotSkipped` | server.js:32 | `Walk`: a single-dot segment, in any of its spellings, is skipped. When nothing follows, the path ends in an empty segment instead. |
| `UrlPath.ClimbOutOfName` | server.js:32 | `PathSegments` and `Pathname`: `/a/../b`, for non-empty plain segments `a` and `b` (no slash, not a dot segment, no `?`, `#` or `\`), parses to the single segment `b` and the pathname `/b`. |
| `UrlPath.AuthoritySkipped` | server.js:32 | `PathInput`: for a non-empty host `h` without `/`, `?`, `#` or `\` and a path `p` whose segments are plain and which has no `?`, `#` or `\`, the target `//h/p` parses to the segments of `p` and the pathname `/p`; the host takes no part in it. |
| `UrlPath.BackslashSeparates` | server.js:32 | `Slashes`: for `a` and `b` without `?`, `#` or `\`, the target `/a\b` has the same pathname as `/a/b`. |
| `UrlPath.PlainPathname` | server.js:31-32 | `Pathname`: a target `/p` whose segments are plain, which has no `?`, `#` or `\`, and where `p` does not start with `/` (that would name a host), parses to itself, and so does `/p?query`. |
| `UrlPath.PathSegments` | server.js:32 | The parsed path has at least one segment, and none of them is a dot segment. |
| `UrlPath.QueryIgnored` | server.js:32 | The pathname of `path?query` equals that of `path`. |
| `UrlPath.PathnameSegments` | server.js:32 | The pathname is `/` followed by its segments. Splitting it gives them back, and none is `.` or `..`. |
| `UrlPath.RootPathname` | server.js:32-35 | `/` with any query or fragment parses to `/`. |
| `UrlPath.ClimbIsPinned` | server.js:32 | For `x` not starting with `/` or `\`, `/../x` parses to the same pathname as `/x`. |
| `PosixPath.CollapsePlain` | server.js:36 | `Normalize`: without dot segments, collapsing only drops the empty segments and keeps the rest in order. |
| `PosixPath.ClimbRemovesName` | server.js:36 | `Normalize`: `..` right after a name removes that name again, whatever was kept before it. |
| `PosixPath.ClimbAtTop` | server.js:36 | `Normalize`: `..` with nothing to remove is dropped from an absolute path and kept in a relative one. |
| `PosixPath.ClimbOutNormalizes` | server.js:36 | `Normalize`: for a non-empty `d` and `tail` and a name `n` without a slash, `d/n/../tail` has the normal form of `d/tail`. |
| `PosixPath.NormalFormEndsInName` | server.js:39 | `Normalize`: the normal form of a path that ends in a name is its kept segments joined, with a leading `/` when the path is absolute. |
| `PosixPath.NormalFormUnslashed` | server.js:39 | `Normalize`: the normal form of a path that ends in a name is not empty and does not end in `/`. |
| `PosixPath.NormalizeBelow` | server.js:36 | Normalising `r/tail`, where `r` ends in a name and `tail` has no dot segment, keeps the normal form of `r` as a prefix. It then adds the non-empty segments of `tail` after a slash, and a trailing slash if `tail` has one. |
| `PosixPath.LastDot` | server.js:45 | The index is that of the last `.`, or -1 when there is none. |
| `PosixPath.NameExtension` | server.js:45 | The extension is empty exactly when the name is `..` or has no `.` after its first character. Otherwise it is a proper suffix of the name that starts with its last `.`. |
| `PosixPath.Extname` | server.js:45 | The extension is empty, or it starts with `.` and has no other `.` and no `/`. |
| `PosixPath.ExtnameOfLastName` | server.js:45 | For a non-empty `name` without a slash, the extension of `p/name` is that of `name`. |
| `Tasks.ParseStatus` | src/components/TaskForm.tsx:96-98 | An option value names a status exactly when it is that status's value. |
| `Tasks.StatusRoundTrip` | src/components/TaskForm.tsx:96-98 | Every status is reached through its own option value. |
| `Tasks.ParsePriority` | src/components/TaskForm.tsx:111-113 | An option value names a priority exactly when it is that priority's value. |
| `Tasks.PriorityRoundTrip` | src/components/TaskForm.tsx:111-113 | Every priority is reached through its own option value. |
| `Tasks.ReplaceById` | src/App.tsx:64 | The length stays the same. Each position holds the returned row if its task had that id, and its own task otherwise. |
| `Tasks.ReplaceKeepsIds` | src/App.tsx:64 | Every position keeps its id, so unique ids stay unique. |
| `Tasks.ReplaceAbsent` | src/App.tsx:64 | A row whose id is not in the list changes nothing. |
| `Tasks.ReplaceIdempotent` | src/App.tsx:64 | Replacing twice with the same row equals replacing once. |
| `Tasks.RemoveById` | src/App.tsx:79 | The result is no longer than the list. Every task it keeps comes from the list and has another id. |
| `Tasks.RemoveByIdCounts` | src/App.tsx:79 | A task with the id occurs 0 times. Every other task occurs exactly as often as before. |
| `Tasks.RemoveByIdAppend` | src/App.tsx:79 | Filtering a concatenation concatenates the filtered parts, so the kept tasks keep their order. |
| `Tasks.RemoveAbsent` | src/App.tsx:79 | Removing an id that no task has changes nothing. |
| `Tasks.RemoveKeepsUnique` | src/App.tsx:79 | Removal keeps ids unique. |
| `Tasks.PrependKeepsUnique` | src/App.tsx:44 | Prepending a row with a fresh id keeps ids unique. |
| `Tasks.DeleteUndoesCreate` | src/App.tsx:44 | Deleting the id of a freshly prepended row gives back the old list. |
| `TaskApp.App.constructor` | src/App.tsx:9-11 | The state starts as no tasks, loading, and no task being edited. |
| `TaskApp.App.FetchTasks` | src/App.tsx:17-32 | The handler selects newest first. On success `tasks` becomes the rows, or empty when the data is null. On error `tasks` is unchanged. `loading` is false afterwards either way. |
| `TaskApp.App.CreateTask` | src/App.tsx:34-49 | The handler inserts the draft. A returned row is prepended. An error or null data leaves `tasks` unchanged. |
| `TaskApp.App.UpdateTask` | src/App.tsx:51-70 | With no task being edited, nothing is sent and nothing changes. Otherwise it sends an update of that id with the draft and the timestamp. A returned row replaces every task with the row's id and ends the edit. An error or null data changes nothing. |
| `TaskApp.App.DeleteTask` | src/App.tsx:72-83 | Without confirmation nothing is sent. Once acknowledged, exactly the tasks with the id are filtered out. On error nothing changes. |
| `TaskApp.App.EditTask` | src/App.tsx:85-88 | The task becomes the one being edited. The list and `loading` are unchanged. |
| `TaskApp.App.CancelEdit` | src/App.tsx:90-92 | No task is being edited afterwards, and nothing else changes. |
| `TaskApp.App.SubmitForm` | src/App.tsx:110 | While a task is being edited the submit is an update of that task, otherwise an insert. The new state is that of the chosen handler. |
| `TaskFormState.TaskForm.constructor` | src/components/TaskForm.tsx:12-15 | The fields start as `''`, `''`, pending and medium. |
| `TaskFormState.TaskForm.ReceiveEditingTask` | src/components/TaskForm.tsx:17-24 | A new task is copied into all four fields. A new null leaves the fields as they were. |
| `TaskFormState.TaskForm.EditTitle` | src/components/TaskForm.tsx:66 | The title becomes the typed value. |
| `TaskFormState.TaskForm.EditDescription` | src/components/TaskForm.tsx:79 | The description becomes the typed value. |
| `TaskFormState.TaskForm.SelectStatus` | src/components/TaskForm.tsx:93 | The status becomes the one whose option value was chosen. |
| `TaskFormState.TaskForm.SelectPriority` | src/components/TaskForm.tsx:108 | The priority becomes the one whose option value was chosen. |
| `TaskFormState.CancelKeepsFields` | src/components/TaskForm.tsx:17-24 | After a task is loaded into a fresh form and the editing task becomes null, as cancelling does (src/App.tsx:90-92), no task is being edited and all four fields still hold the task's values. |
| `TaskFormState.TaskForm.Submit` | src/components/TaskForm.tsx:26-40 | An empty title, which the `required` input blocks, emits nothing and changes nothing. Otherwise the four current values are emitted exactly. In create mode the fields return to their defaults. In edit mode they stay. |

## Left out

- HTTP plumbing: `createServer`, `listen`, the host and port, the request method, and every `console.log`/`console.error` (server.js:12-13, 28, 65, 72-76). The UI's `console.error` calls (src/App.tsx:28, 47, 68, 81) are left out too: the model's error paths leave the state unchanged and log nothing. The response is a returned value.
- The real file system and `readFile`: replaced by a map from path to bytes. A directory, a permission error or any other failed read is a missing key.
- `UrlPath.Pathname`: characters outside the path percent-encode set are not percent-encoded (space, `"`, `<`, `>`, `` ` ``, `{`, `}`, non-ASCII). Leading and trailing C0 controls and spaces are not trimmed, and tabs and newlines are not removed. Of the characters in parentheses, Node's HTTP parser refuses only the space in a request target; the others reach the handler. So `/{x}` is looked up as `dist/{x}` here, where the real parser gives `dist/%7Bx%7D`.
- `UrlPath.Pathname`: a target that starts with a URL scheme (absolute form, `http://h/p`, or `a:b`) is read as a relative path.
- Host parsing: whether `new URL` accepts the Host header, or the authority of a `//host` target, is the input `Request.hostAccepted`. When it is false the handler goes straight to the fallback, as the catch at server.js:53 does. The path of the base URL is taken to be `/`. A Host header that carries a path changes the pathname of the asterisk-form target `*`: with Host `h/x/`, `new URL('*', 'http://h/x/')` gives `/x/*`, where the model gives `/*`. Every target that starts with `/` is unaffected.
- Windows path rules (`path.win32`): the model is POSIX only.
- The store (Supabase) calls, `async`/`await` and `new Date().toISOString()` (src/App.tsx:20-23, 36-40, 55-60, 76): replies and the timestamp are inputs. Interleaved handlers and the stale `tasks` a handler captured before its `await` are not modelled.
- The mount effect (src/App.tsx:13-15) is not a member: a caller starts with `FetchTasks`.
- `confirm` (src/App.tsx:73) is the input `confirmed`. `window.scrollTo` (src/App.tsx:87) is left out.
- `TaskFormState.TaskForm.ReceiveEditingTask`: React runs the effect when the prop's identity changes. The model runs it on each call, so passing the same task object twice is not distinguished.
- `Tasks.Task`: the row type comes from `src/lib/supabase.ts`, which is not part of this model. `description` is a string, although the store may hold null.
- JSX rendering, Tailwind classes, the whole of `src/components/TaskCard.tsx`, and `vite.config.ts`: presentation and build configuration.

=== FILE: app.dfy ===
/**
 * The task list screen (src/App.tsx): its three pieces of state and the
 * handlers that change them. Each call to the remote store is returned as
 * the `StoreCall` the handler issues, and the store's reply is an input.
 */
module TaskApp {
  import opened Wrappers
  import opened Tasks

  /** A store reply that carries data: `{ data, error }` with `error` set, or the data (possibly null). */
  datatype Reply<T> = Ok(data: Option<T>) | Err {
    /** The reply carries a row (`data` is truthy). */
    predicate HasRow() {
      Ok? && data.Some?
    }
  }

  /** A store reply that carries no data: only whether `error` was set. */
  datatype Outcome = Done | Failed

  /** The request a handler sends to the store. */
  datatype StoreCall =
    | SelectNewestFirst
    | Insert(draft: Draft)
    | Update(id: string, draft: Draft, updatedAt: string)
    | Delete(id: string)

  class App {
    var tasks: seq<Task>
    var loading: bool
    var editingTask: Option<Task>

    /** The initial state (src/App.tsx:9-11); mounting then runs FetchTasks once. */
    constructor ()
      ensures tasks == [] && loading && editingTask == None
    {
      tasks := [];
      loading := true;
      editingTask := None;
    }

    /** Loads all rows, newest first; on error the list stays as it was. */
    method FetchTasks(reply: Reply<seq<Task>>) returns (call: StoreCall)
      modifies this
      ensures call == SelectNewestFirst
      ensures reply.Ok? ==> tasks == reply.data.GetOr([])
      ensures reply.Err? ==> tasks == old(tasks)
      ensures !loading && editingTask == old(editingTask)
    {
      loading := true;
      call := SelectNewestFirst;
      if reply.Ok? {
        tasks := reply.data.GetOr([]);
      }
      loading := false;
    }

    /** Inserts the draft; the row the store returns goes in front of the list. */
    method CreateTask(draft: Draft, reply: Reply<Task>) returns (call: StoreCall)
      modifies this
      ensures call == Insert(draft)
      ensures reply.HasRow() ==> tasks == [reply.data.value] + old(tasks)
      ensures !reply.HasRow() ==> tasks == old(tasks)
      ensures loading == old(loading) && editingTask == old(editingTask)
    {
      call := Insert(draft);
      if reply.HasRow() {
        tasks := [reply.data.value] + tasks;
      }
    }

    /**
     * Sends the draft with a fresh `updated_at` for the task being edited,
     * puts the returned row in place of every task with its id and ends the
     * edit; without a task being edited nothing is sent and nothing changes.
     */
    method UpdateTask(draft: Draft, now: string, reply: Reply<Task>) returns (call: Option<StoreCall>)
      modifies this
      ensures old(editingTask).None? ==> call == None && tasks == old(tasks) && editingTask == None
      ensures old(editingTask).Some? ==> call == Some(Update(old(editingTask).value.id, draft, now))
      ensures old(editingTask).Some? && reply.HasRow() ==>
                tasks == ReplaceById(old(tasks), reply.data.value) && editingTask == None
      ensures old(editingTask).Some? && !reply.HasRow() ==>
                tasks == old(tasks) && editingTask == old(editingTask)
      ensures loading == old(loading)
    {
      if editingTask.None? {
        return None;
      }
      call := Some(Update(editingTask.value.id, draft, now));
      if reply.HasRow() {
        tasks := ReplaceById(tasks, reply.data.value);
        editingTask := None;
      }
    }

    /**
     * Deletes by id once the user confirmed; after the store acknowledges,
     * every task with that id leaves the list. An edit in progress is kept.
     */
    method DeleteTask(id: string, confirmed: bool, reply: Outcome) returns (call: Option<StoreCall>)
      modifies this
      ensures !confirmed ==> call == None && tasks == old(tasks)
      ensures confirmed ==> call == Some(Delete(id))
      ensures confirmed && reply == Done ==> tasks == RemoveById(old(tasks), id)
      ensures confirmed && reply == Failed ==> tasks == old(tasks)
      ensures loading == old(loading) && editingTask == old(editingTask)
    {
      if !confirmed {
        return None;
      }
      call := Some(Delete(id));
      if reply == Done {
        tasks := RemoveById(tasks, id);
      }
    }

    /** Selects a task for editing. */
    method EditTask(task: Task)
      modifies this
      ensures editingTask == Some(task)
      ensures tasks == old(tasks) && loading == old(loading)
    {
      editingTask := Some(task);
    }

    /** Ends the edit and touches nothing else. */
    method CancelEdit()
      modifies this
      ensures editingTask == None
      ensures tasks == old(tasks) && loading == old(loading)
    {
      editingTask := None;
    }

    /** The form's submit goes to UpdateTask while a task is being edited, else to CreateTask. */
    method SubmitForm(draft: Draft, now: string, reply: Reply<Task>) returns (call: Option<StoreCall>)
      modifies this
      ensures old(editingTask).Some? ==> call == Some(Update(old(editingTask).value.id, draft, now))
      ensures old(editingTask).None? ==> call == Some(Insert(draft))
      ensures tasks == if !reply.HasRow() then old(tasks)
                       else if old(editingTask).Some? then ReplaceById(old(tasks), reply.data.value)
                       else [reply.data.value] + old(tasks)
      ensures editingTask == if old(editingTask).Some? && reply.HasRow() then None else old(editingTask)
      ensures loading == old(loading)
    {
      if editingTask.Some? {
        call := UpdateTask(draft, now, reply);
      } else {
        var inserted := CreateTask(draft, reply);
        call := Some(inserted);
      }
    }
  }
}

=== FILE: posix_path.dfy ===
/**
 * Node's `path.join`, `path.normalize` and `path.extname` on POSIX, which
 * build the file path of a request and pick its extension (server.js:36,
 * server.js:39, server.js:45, server.js:61).
 */
module PosixPath {
  import opened Segments

  /** The non-empty strings of `parts`, in order. */
  function NonEmpty(parts: seq<string>): (r: seq<string>)
    ensures |r| <= |parts|
    ensures forall i :: 0 <= i < |r| ==> r[i] != "" && r[i] in parts
  {
    if |parts| == 0 then []
    else if parts[0] == "" then NonEmpty(parts[1..])
    else [parts[0]] + NonEmpty(parts[1..])
  }

  /**
   * One segment of `normalizeString`: "" and "." vanish, ".." removes the
   * last name kept so far; with nothing to remove it is kept in a relative
   * path and dropped in an absolute one; any other segment is kept.
   */
  function Step(kept: seq<string>, seg: string, absolute: bool): seq<string> {
    if seg == "" || seg == "." then kept
    else if seg == ".." then
      if |kept| > 0 && kept[|kept| - 1] != ".." then kept[..|kept| - 1]
      else if absolute then kept
      else kept + [".."]
    else kept + [seg]
  }

  function Collapse(kept: seq<string>, segs: seq<string>, absolute: bool): seq<string>
    decreases |segs|
  {
    if |segs| == 0 then kept else Collapse(Step(kept, segs[0], absolute), segs[1..], absolute)
  }

  /** `path.normalize(p)`. */
  function Normalize(p: string): string {
    if p == "" then "."
    else
      var absolute := p[0] == '/';
      var trailing := p[|p| - 1] == '/';
      var body := JoinWith(Collapse([], Split(p), absolute));
      if body == "" then (if absolute then "/" else if trailing then "./" else ".")
      else (if absolute then "/" else "") + body + (if trailing then "/" else "")
  }

  /** `path.join(...parts)`: the non-empty parts joined with '/', then normalised. */
  function Join(parts: seq<string>): string {
    var joined := JoinWith(NonEmpty(parts));
    if joined == "" then "." else Normalize(joined)
  }

  /** Joining three parts whose last two are not empty puts the third after the first two and a slash. */
  lemma JoinThree(x: string, y: string, z: string)
    requires y != "" && z != ""
    ensures JoinWith(NonEmpty([x, y, z])) == JoinWith(NonEmpty([x, y])) + "/" + z
  {
    assert [x, y, z][1..] == [y, z] && [y, z][1..] == [z] && [z][1..] == [];
    assert [x, y][1..] == [y] && [y][1..] == [];
    assert NonEmpty([y, z]) == [y, z];
    if x == "" {
      assert NonEmpty([x, y]) == [y];
    } else {
      JoinThreeFull(x, y, z);
    }
  }

  lemma JoinThreeFull(x: string, y: string, z: string)
    requires x != "" && y != "" && z != ""
    ensures JoinWith(NonEmpty([x, y, z])) == JoinWith(NonEmpty([x, y])) + "/" + z
  {
    assert [x, y, z][1..] == [y, z] && [y, z][1..] == [z] && [z][1..] == [];
    assert [x, y][1..] == [y] && [y][1..] == [];
    assert NonEmpty([z]) == [z];
    assert NonEmpty([y, z]) == [y] + [z];
    assert NonEmpty([x, y, z]) == [x] + [y, z];
    assert NonEmpty([x, y]) == [x, y];
    assert JoinWith([y, z]) == y + "/" + z;
    assert JoinWith([x, y, z]) == x + "/" + (y + "/" + z);
    assert x + "/" + (y + "/" + z) == x + "/" + y + "/" + z;
  }

  /** The last non-empty segment (trailing slashes are ignored), "" when there is none. */
  function LastName(segs: seq<string>): (name: string)
    ensures name != "" ==> name in segs
  {
    if |segs| == 0 then ""
    else if segs[|segs| - 1] != "" then segs[|segs| - 1]
    else LastName(segs[..|segs| - 1])
  }

  /** The index of the last '.' in `s`, or -1. */
  function LastDot(s: string): (k: int)
    ensures -1 <= k < |s|
    ensures k >= 0 ==> s[k] == '.'
    ensures forall j :: k < j < |s| ==> s[j] != '.'
  {
    if |s| == 0 then -1
    else if s[|s| - 1] == '.' then |s| - 1
    else LastDot(s[..|s| - 1])
  }

  /** `path.extname(p)`: the extension of the last name of `p`. */
  function Extname(p: string): (ext: string)
    ensures ext == "" || (ext[0] == '.' && SlashFree(ext) && forall j :: 1 <= j < |ext| ==> ext[j] != '.')
  {
    NameExtension(LastName(Split(p)))
  }

  /**
   * From the last '.' of `name` to its end; empty when the name has no '.',
   * when its only '.' is its first character (".bashrc") and for "..".
   */
  function NameExtension(name: string): (ext: string)
    ensures ext == "" <==> name == ".." || forall j :: 0 < j < |name| ==> name[j] != '.'
    ensures ext != "" ==> && |ext| < |name| && ext == name[|name| - |ext|..]
                          && ext[0] == '.' && forall j :: 1 <= j < |ext| ==> ext[j] != '.'
  {
    var k := LastDot(name);
    if k <= 0 || name == ".." then "" else name[k..]
  }

  /** The extension of `p + "/" + name` is that of the name. */
  lemma ExtnameOfLastName(p: string, name: string)
    requires name != "" && SlashFree(name)
    ensures Extname(p + "/" + name) == NameExtension(name)
  {
    SplitConcat(p, name);
    SplitSlashFree(name);
  }

  /** A name that neither vanishes nor climbs when normalised. */
  predicate IsName(seg: string) {
    seg != "" && seg != "." && seg != ".."
  }

  /** Collapsing runs segment by segment, so it splits over concatenation. */
  lemma {:induction false} CollapseAppend(kept: seq<string>, xs: seq<string>, ys: seq<string>, absolute: bool)
    ensures Collapse(kept, xs + ys, absolute) == Collapse(Collapse(kept, xs, absolute), ys, absolute)
    decreases |xs|
  {
    if |xs| == 0 {
      assert xs + ys == ys;
    } else {
      assert (xs + ys)[0] == xs[0];
      assert (xs + ys)[1..] == xs[1..] + ys;
      CollapseAppend(Step(kept, xs[0], absolute), xs[1..], ys, absolute);
    }
  }

  /** ".." right after a name removes that name again: "a/.." adds nothing. */
  lemma ClimbRemovesName(kept: seq<string>, name: string, segs: seq<string>, absolute: bool)
    requires IsName(name)
    ensures Collapse(kept, [name, ".."] + segs, absolute) == Collapse(kept, segs, absolute)
  {
    var s := [name, ".."] + segs;
    var t := [".."] + segs;
    assert s[0] == name && s[1..] == t;
    assert t[0] == ".." && t[1..] == segs;
    assert (kept + [name])[..|kept|] == kept;
  }

  /**
   * ".." with nothing to remove is dropped from an absolute path and kept
   * in a relative one: "/../x" is "/x", "../x" stays "../x".
   */
  lemma ClimbAtTop(segs: seq<string>, absolute: bool)
    ensures Collapse([], [".."] + segs, absolute) == Collapse(if absolute then [] else [".."], segs, absolute)
  {
    var t := [".."] + segs;
    assert t[0] == ".." && t[1..] == segs;
    assert [] + [".."] == [".."];
  }

  /** Normalising "d/n/../tail" gives the normal form of "d/tail": the climb undoes the name. */
  lemma ClimbOutNormalizes(d: string, n: string, tail: string)
    requires d != "" && tail != ""
    requires IsName(n) && SlashFree(n)
    ensures Normalize(d + "/" + (n + "/../" + tail)) == Normalize(d + "/" + tail)
  {
    var x := d + "/" + (n + "/../" + tail);
    var y := d + "/" + tail;
    CollapseClimbOut(d, n, tail, d[0] == '/');
    assert x[0] == d[0] && y[0] == d[0];
    assert x[|x| - 1] == tail[|tail| - 1] && y[|y| - 1] == tail[|tail| - 1];
    SameNormalForm(x, y);
  }

  /** Two paths with the same collapsed segments, first and last character share a normal form. */
  lemma SameNormalForm(x: string, y: string)
    requires x != "" && y != "" && x[0] == y[0] && x[|x| - 1] == y[|y| - 1]
    requires Collapse([], Split(x), x[0] == '/') == Collapse([], Split(y), y[0] == '/')
    ensures Normalize(x) == Normalize(y)
  {
  }

  lemma CollapseClimbOut(d: string, n: string, tail: string, absolute: bool)
    requires IsName(n) && SlashFree(n)
    ensures Collapse([], Split(d + "/" + (n + "/../" + tail)), absolute) == Collapse([], Split(d + "/" + tail), absolute)
  {
    SplitConcat(d, n + "/../" + tail);
    NameClimbSplit(n, tail);
    SplitConcat(d, tail);
    CollapseAppend([], Split(d), [n, ".."] + Split(tail), absolute);
    ClimbRemovesName(Collapse([], Split(d), absolute), n, Split(tail), absolute);
    CollapseAppend([], Split(d), Split(tail), absolute);
  }

  lemma NameClimbSplit(n: string, tail: string)
    requires SlashFree(n)
    ensures Split(n + "/../" + tail) == [n, ".."] + Split(tail)
  {
    var up := ".." + "/" + tail;
    ClimbSpelled(n, tail);
    SplitConcat(n, up);
    SplitConcat("..", tail);
    SplitSlashFree(n);
    SplitSlashFree("..");
    assert [n] + ([".."] + Split(tail)) == [n, ".."] + Split(tail);
  }

  /** Without dot segments, collapsing only drops the empty segments. */
  lemma {:induction false} CollapsePlain(kept: seq<string>, segs: seq<string>, absolute: bool)
    requires NoDotSegments(segs)
    ensures Collapse(kept, segs, absolute) == kept + NonEmpty(segs)
    decreases |segs|
  {
    if |segs| > 0 {
      var seg, rest := segs[0], segs[1..];
      assert NoDotSegments(rest) by {
        forall i | 0 <= i < |rest| ensures rest[i] != "." && rest[i] != ".." {
          assert rest[i] == segs[i + 1];
        }
      }
      assert seg != "." && seg != "..";
      CollapsePlain(Step(kept, seg, absolute), rest, absolute);
      if seg != "" {
        assert NonEmpty(segs) == [seg] + NonEmpty(rest);
        assert kept + [seg] + NonEmpty(rest) == kept + ([seg] + NonEmpty(rest));
      }
    }
  }

  /** A string whose last segment is a name does not end in a slash. */
  lemma EndsInName(r: string)
    requires IsName(Split(r)[|Split(r)| - 1])
    ensures r != "" && r[|r| - 1] != '/'
  {
    var segs := Split(r);
    var n := segs[|segs| - 1];
    SplitThenJoin(r);
    if |segs| == 1 {
      assert r == n;
    } else {
      assert segs == segs[..|segs| - 1] + [n];
      JoinAppend(segs[..|segs| - 1], [n]);
    }
  }

  /**
   * The normal form of a string that ends in a name is its kept segments
   * joined, after a slash when it is absolute.
   */
  lemma NormalFormEndsInName(r: string)
    requires IsName(Split(r)[|Split(r)| - 1])
    ensures r != ""
    ensures var kept := Collapse([], Split(r), r[0] == '/');
            && |kept| >= 1
            && Normalize(r) == (if r[0] == '/' then "/" else "") + JoinWith(kept)
  {
    EndsInName(r);
    KeptSome(r, r[0] == '/');
    NormalizeUntrailed(r);
  }

  /** The normal form of a string that ends in a name does not end in a slash. */
  lemma {:induction false} NormalFormUnslashed(r: string)
    requires IsName(Split(r)[|Split(r)| - 1])
    ensures r != ""
    ensures Normalize(r) != "" && Normalize(r)[|Normalize(r)| - 1] != '/'
  {
    EndsInName(r);
    KeptJoinUnslashed(r, r[0] == '/');
    NormalizeUntrailed(r);
    LastAfterFront(if r[0] == '/' then "/" else "", JoinWith(Collapse([], Split(r), r[0] == '/')));
  }

  /** Some segment of a string that ends in a name is kept, so their join is not empty. */
  lemma KeptSome(r: string, absolute: bool)
    requires IsName(Split(r)[|Split(r)| - 1])
    ensures var kept := Collapse([], Split(r), absolute);
            |kept| >= 1 && JoinWith(kept) != ""
  {
    KeptJoinEndsInName(r, absolute);
  }

  /** The kept segments of a string that ends in a name join to a string that does not end in a slash. */
  lemma KeptJoinUnslashed(r: string, absolute: bool)
    requires IsName(Split(r)[|Split(r)| - 1])
    ensures var body := JoinWith(Collapse([], Split(r), absolute));
            body != "" && body[|body| - 1] != '/'
  {
    KeptJoinEndsInName(r, absolute);
  }

  /** The kept segments of a string that ends in a name end in it, and their join does not end in a slash. */
  lemma KeptJoinEndsInName(r: string, absolute: bool)
    requires IsName(Split(r)[|Split(r)| - 1])
    ensures var kept := Collapse([], Split(r), absolute);
            && |kept| >= 1 && kept[|kept| - 1] == Split(r)[|Split(r)| - 1]
            && JoinWith(kept) != "" && JoinWith(kept)[|JoinWith(kept)| - 1] != '/'
  {
    LastSegmentEnd(r);
    KeptSegmentsEndInName(Split(r), absolute);
  }

  /** Collapsing segments that end in a name ending in a non-slash keeps it last, and their join ends in it. */
  lemma KeptSegmentsEndInName(segs: seq<string>, absolute: bool)
    requires |segs| >= 1 && IsName(segs[|segs| - 1])
    requires var n := segs[|segs| - 1]; n[|n| - 1] != '/'
    ensures var kept := Collapse([], segs, absolute);
            && |kept| >= 1 && kept[|kept| - 1] == segs[|segs| - 1]
            && JoinWith(kept) != "" && JoinWith(kept)[|JoinWith(kept)| - 1] != '/'
  {
    CollapseKeepsName(segs, absolute);
    JoinEndsInName(Collapse([], segs, absolute));
  }

  /** A string that does not end in a slash still does not with something in front. */
  lemma LastAfterFront(front: string, body: string)
    requires body != "" && body[|body| - 1] != '/'
    ensures var s := front + body; s != "" && s[|s| - 1] != '/'
  {
    var s := front + body;
    assert s[|s| - 1] == body[|body| - 1];
  }

  /** Without a trailing slash and with something kept, the normal form is the kept segments joined. */
  lemma NormalizeUntrailed(r: string)
    requires r != "" && r[|r| - 1] != '/'
    requires JoinWith(Collapse([], Split(r), r[0] == '/')) != ""
    ensures Normalize(r) == (if r[0] == '/' then "/" else "") + JoinWith(Collapse([], Split(r), r[0] == '/'))
  {
  }

  /** Collapsing segments that end in a name keeps that name last. */
  lemma CollapseKeepsName(segs: seq<string>, absolute: bool)
    requires |segs| >= 1 && IsName(segs[|segs| - 1])
    ensures var kept := Collapse([], segs, absolute);
            |kept| >= 1 && kept[|kept| - 1] == segs[|segs| - 1]
  {
    var init, n := segs[..|segs| - 1], segs[|segs| - 1];
    assert segs == init + [n];
    var kept0 := Collapse([], init, absolute);
    CollapseAppend([], init, [n], absolute);
    assert Collapse(kept0, [n], absolute) == Collapse(kept0 + [n], [], absolute) == kept0 + [n];
  }

  /** A last segment that is a name does not end in a slash. */
  lemma LastSegmentEnd(r: string)
    requires IsName(Split(r)[|Split(r)| - 1])
    ensures var n := Split(r)[|Split(r)| - 1]; n[|n| - 1] != '/'
  {
  }

  /** Joined segments whose last one is a name not ending in a slash do not end in a slash. */
  lemma JoinEndsInName(kept: seq<string>)
    requires |kept| >= 1 && IsName(kept[|kept| - 1])
    requires var n := kept[|kept| - 1]; n[|n| - 1] != '/'
    ensures var body, n := JoinWith(kept), kept[|kept| - 1];
            body != "" && body[|body| - 1] == n[|n| - 1] != '/'
  {
    var init, n := kept[..|kept| - 1], kept[|kept| - 1];
    assert kept == init + [n];
    if init == [] {
      assert JoinWith(kept) == n;
    } else {
      JoinAppend(init, [n]);
      assert JoinWith(kept) == JoinWith(init) + "/" + n;
    }
  }

  /**
   * Normalising `r + "/" + tail`, where `r` ends in a name and `tail` holds
   * no dot segment, keeps the normal form of `r` as it is and adds the
   * non-empty segments of `tail` after a slash (and a trailing slash when
   * `tail` has one): nothing in `tail` can climb out of `r`.
   */
  lemma {:induction false} NormalizeBelow(r: string, tail: string)
    requires IsName(Split(r)[|Split(r)| - 1])
    requires tail != ""
    requires NoDotSegments(Split(tail))
    ensures var rest := NonEmpty(Split(tail));
            var below := if rest == [] then Normalize(r) else Normalize(r) + "/" + JoinWith(rest);
            Normalize(r + "/" + tail) == if tail[|tail| - 1] == '/' then below + "/" else below
    ensures Normalize(r) != "" && Normalize(r)[|Normalize(r)| - 1] != '/'
  {
    NormalFormEndsInName(r);
    NormalFormUnslashed(r);
    var absolute := r[0] == '/';
    var kept := Collapse([], Split(r), absolute);
    var rest := NonEmpty(Split(tail));
    var s := r + "/" + tail;
    CollapseBelow(r, tail, absolute);
    JoinBelow(kept, rest, if absolute then "/" else "");
    assert s[0] == r[0] && s[|s| - 1] == tail[|tail| - 1];
    NormalizeShape(s, kept + rest);
  }

  lemma CollapseBelow(r: string, tail: string, absolute: bool)
    requires NoDotSegments(Split(tail))
    ensures Collapse([], Split(r + "/" + tail), absolute)
            == Collapse([], Split(r), absolute) + NonEmpty(Split(tail))
  {
    SplitConcat(r, tail);
    CollapseAppend([], Split(r), Split(tail), absolute);
    CollapsePlain(Collapse([], Split(r), absolute), Split(tail), absolute);
  }

  /** Joining more segments after `kept` appends them after a slash, whatever comes first. */
  lemma JoinBelow(kept: seq<string>, rest: seq<string>, lead: string)
    requires |kept| >= 1
    ensures lead + JoinWith(kept + rest)
            == if rest == [] then lead + JoinWith(kept) else lead + JoinWith(kept) + "/" + JoinWith(rest)
    ensures JoinWith(kept) != "" ==> JoinWith(kept + rest) != ""
  {
    if rest == [] {
      assert kept + rest == kept;
    } else {
      JoinAppend(kept, rest);
      assert lead + (JoinWith(kept) + "/" + JoinWith(rest)) == lead + JoinWith(kept) + "/" + JoinWith(rest);
    }
  }

  /** The normal form of a string whose collapsed segments do not join to "". */
  lemma NormalizeShape(s: string, kept: seq<string>)
    requires s != ""
    requires Collapse([], Split(s), s[0] == '/') == kept
    requires JoinWith(kept) != ""
    ensures var front := (if s[0] == '/' then "/" else "") + JoinWith(kept);
            Normalize(s) == if s[|s| - 1] == '/' then front + "/" else front
  {
    var front := (if s[0] == '/' then "/" else "") + JoinWith(kept);
    assert front + "" == front;
  }

  // ----- solver helpers -----
  // Each lemma below states a single re-association of strings or sequences,
  // or a single index fact, that the proofs above call to keep each of their
  // steps small. They add nothing to the model and can be skipped.

  lemma ClimbSpelled(n: string, tail: string)
    ensures n + "/../" + tail == n + "/" + (".." + "/" + tail)
  {
    assert "/../" == "/" + ".." + "/";
  }
}

=== FILE: segments.dfy ===
/**
 * Strings cut at '/' and glued back together: the common ground of the URL
 * parser's path segments and Node's POSIX path functions.
 */
module Segments {

  predicate SlashFree(s: string) {
    forall i :: 0 <= i < |s| ==> s[i] != '/'
  }

  /** No piece is "." or "..": a path made of them never stays in place or climbs. */
  predicate NoDotSegments(parts: seq<string>) {
    forall i :: 0 <= i < |parts| ==> parts[i] != "." && parts[i] != ".."
  }

  /** `s.split('/')`: the pieces between slashes, never an empty list. */
  function Split(s: string): (parts: seq<string>)
    ensures |parts| >= 1
    ensures forall i :: 0 <= i < |parts| ==> SlashFree(parts[i])
  {
    if |s| == 0 then [""]
    else
      var rest := Split(s[1..]);
      if s[0] == '/' then [""] + rest
      else [[s[0]] + rest[0]] + rest[1..]
  }

  /** `parts.join('/')`. */
  function JoinWith(parts: seq<string>): string {
    if |parts| == 0 then ""
    else if |parts| == 1 then parts[0]
    else parts[0] + "/" + JoinWith(parts[1..])
  }

  /** Joining the pieces of a split gives the string back. */
  lemma {:induction false} SplitThenJoin(s: string)
    ensures JoinWith(Split(s)) == s
  {
    if |s| > 0 {
      var rest := Split(s[1..]);
      SplitThenJoin(s[1..]);
      if s[0] == '/' {
        assert Split(s) == [""] + rest;
        assert ([""] + rest)[1..] == rest;
        assert s == "/" + s[1..];
      } else {
        var parts := [[s[0]] + rest[0]] + rest[1..];
        assert Split(s) == parts;
        if |rest| == 1 {
          assert JoinWith(parts) == [s[0]] + rest[0];
          assert JoinWith(rest) == rest[0];
        } else {
          assert parts[1..] == rest[1..];
          assert JoinWith(parts) == ([s[0]] + rest[0]) + "/" + JoinWith(rest[1..]);
          assert JoinWith(rest) == rest[0] + "/" + JoinWith(rest[1..]);
        }
        assert s == [s[0]] + s[1..];
      }
    }
  }

  /** A string without slashes is a single piece. */
  lemma {:induction false} SplitSlashFree(s: string)
    requires SlashFree(s)
    ensures Split(s) == [s]
  {
    if |s| > 0 {
      SplitSlashFree(s[1..]);
      assert s == [s[0]] + s[1..];
    }
  }

  /** Splitting distributes over a slash-separated concatenation. */
  lemma {:induction false} SplitConcat(a: string, b: string)
    ensures Split(a + "/" + b) == Split(a) + Split(b)
  {
    var s := a + "/" + b;
    if |a| == 0 {
      assert s == "/" + b;
      assert s[1..] == b;
    } else {
      assert s[1..] == a[1..] + "/" + b;
      SplitConcat(a[1..], b);
      SplitConcatStep(a, b);
    }
  }

  lemma SplitConcatStep(a: string, b: string)
    requires |a| > 0
    requires Split(a[1..] + "/" + b) == Split(a[1..]) + Split(b)
    ensures Split(a + "/" + b) == Split(a) + Split(b)
  {
    ConcatTail(a, b);
    if a[0] == '/' {
      SlashCase(a, b);
    } else {
      LetterCase(a, b);
    }
  }

  lemma SlashCase(a: string, b: string)
    requires |a| > 0 && a[0] == '/'
    requires (a + "/" + b)[0] == a[0] && (a + "/" + b)[1..] == a[1..] + "/" + b
    requires Split(a[1..] + "/" + b) == Split(a[1..]) + Split(b)
    ensures Split(a + "/" + b) == Split(a) + Split(b)
  {
    var rest, more := Split(a[1..]), Split(b);
    assert [""] + (rest + more) == [""] + rest + more;
  }

  lemma LetterCase(a: string, b: string)
    requires |a| > 0 && a[0] != '/'
    requires (a + "/" + b)[0] == a[0] && (a + "/" + b)[1..] == a[1..] + "/" + b
    requires Split(a[1..] + "/" + b) == Split(a[1..]) + Split(b)
    ensures Split(a + "/" + b) == Split(a) + Split(b)
  {
    LetterStep(a[0], Split(a[1..]), Split(b));
  }

  /** Joining two non-empty lists puts one slash between their joins. */
  lemma {:induction false} JoinAppend(xs: seq<string>, ys: seq<string>)
    requires |xs| >= 1 && |ys| >= 1
    ensures JoinWith(xs + ys) == JoinWith(xs) + "/" + JoinWith(ys)
  {
    if |xs| == 1 {
      assert (xs + ys)[1..] == ys;
    } else {
      assert (xs + ys)[1..] == xs[1..] + ys;
      JoinAppend(xs[1..], ys);
    }
  }

  /** Splitting the join of slash-free pieces gives the pieces back. */
  lemma {:induction false} JoinThenSplit(parts: seq<string>)
    requires |parts| >= 1
    requires forall i :: 0 <= i < |parts| ==> SlashFree(parts[i])
    ensures Split(JoinWith(parts)) == parts
  {
    SplitSlashFree(parts[0]);
    if |parts| > 1 {
      JoinThenSplit(parts[1..]);
      SplitConcat(parts[0], JoinWith(parts[1..]));
      assert parts == [parts[0]] + parts[1..];
    }
  }

  // ----- solver helpers -----
  // Each lemma below states a single re-association of strings or sequences,
  // or a single index fact, that the proofs above call to keep each of their
  // steps small. They add nothing to the model and can be skipped.

  lemma ConcatTail(a: string, b: string)
    requires |a| > 0
    ensures (a + "/" + b)[0] == a[0] && (a + "/" + b)[1..] == a[1..] + "/" + b
  {
  }

  lemma LetterStep(c: char, rest: seq<string>, more: seq<string>)
    requires |rest| >= 1
    ensures var whole := rest + more;
            [[c] + whole[0]] + whole[1..] == [[c] + rest[0]] + rest[1..] + more
  {
    var whole := rest + more;
    assert whole[0] == rest[0];
    assert whole[1..] == rest[1..] + more;
  }
}

=== FILE: static_server.dfy ===
/**
 * The request handler of the static file server (server.js:27-70) as a pure
 * function from a request and an abstract file system to the one response
 * it writes. The file system maps each readable file path to its bytes; a
 * path that is missing stands for every failed read, since the handler
 * catches every exception alike (server.js:53, server.js:64).
 */
module StaticServer {
  import opened Wrappers
  import opened Segments
  import UrlPath
  import PosixPath

  newtype byte = b: int | 0 <= b < 256

  type FileSystem = map<string, seq<byte>>

  /**
   * A request: its raw target (`req.url`, query included) and whether the
   * URL parser accepts the host the target is resolved against; when it does
   * not, `new URL` throws and the handler goes straight to its catch block.
   */
  datatype Request = Request(url: string, hostAccepted: bool)

  /** The status, the Content-Type header if one is written, and the body. */
  datatype Response = Response(status: int, contentType: Option<string>, body: seq<byte>)

  /** The extension table of server.js:15-25; keys are compared exactly, so ".PNG" is not ".png". */
  const MimeTypes: map<string, string> := map[
    ".html" := "text/html",
    ".js" := "text/javascript",
    ".css" := "text/css",
    ".json" := "application/json",
    ".png" := "image/png",
    ".jpg" := "image/jpeg",
    ".gif" := "image/gif",
    ".svg" := "image/svg+xml",
    ".ico" := "image/x-icon"
  ]

  const Binary := "application/octet-stream"

  /** The bytes of an ASCII text body. */
  function Ascii(s: string): seq<byte>
    requires forall i :: 0 <= i < |s| ==> s[i] as int < 128
  {
    seq(|s|, i requires 0 <= i < |s| => s[i] as int as byte)
  }

  const Forbidden := Response(403, None, Ascii("403: Forbidden"))

  const NotFound := Response(404, Some("text/plain"), Ascii("404: File not found"))

  /** A content type the server can send with a file. */
  predicate IsServedType(t: string) {
    t in MimeTypes.Values || t == Binary
  }

  /** `mimeTypes[ext] || 'application/octet-stream'`. */
  function ContentType(ext: string): (t: string)
    ensures IsServedType(t)
    ensures t == Binary <==> ext !in MimeTypes
    ensures ext in MimeTypes ==> t == MimeTypes[ext]
  {
    if ext in MimeTypes then MimeTypes[ext] else Binary
  }

  /** Extensions are looked up exactly as written: ".PNG" is not ".png". */
  lemma ExtensionCaseMatters()
    ensures ContentType(".png") == "image/png"
    ensures ContentType(".PNG") == Binary
  {
  }

  /** `join(__dirname, 'dist')`, the asset root. */
  function AssetRoot(dir: string): string {
    PosixPath.Join([dir, "dist"])
  }

  /** The name of the single-page application shell. */
  const ShellName := "index.html"

  /** `join(__dirname, 'dist', 'index.html')`, the shell document. */
  function ShellPath(dir: string): string {
    PosixPath.Join([dir, "dist", ShellName])
  }

  /** The root path asks for the shell document; any other pathname is used as it is. */
  function FilePath(pathname: string): string {
    if pathname == "/" then "/" + ShellName else pathname
  }

  /** `join(__dirname, 'dist', filePath)`: the file a parsed request target names. */
  function LookupPath(dir: string, target: string): string {
    PosixPath.Join([dir, "dist", FilePath(UrlPath.Pathname(target))])
  }

  /** The catch block: no fallback for a target with a '.' anywhere in it, else the shell. */
  function Fallback(shell: string, target: string, fs: FileSystem): Response {
    if '.' in target then NotFound
    else if shell in fs then Response(200, Some("text/html"), fs[shell])
    else NotFound
  }

  /** The guard, the read of `fullPath` and, when that read fails, the fallback. */
  function Serve(root: string, fullPath: string, shell: string, target: string, fs: FileSystem): Response {
    if !(root <= fullPath) then Forbidden
    else if fullPath in fs then
      Response(200, Some(ContentType(PosixPath.Extname(fullPath))), fs[fullPath])
    else Fallback(shell, target, fs)
  }

  /** The whole handler: exactly one response per request. */
  function Resolve(dir: string, req: Request, fs: FileSystem): (r: Response)
    ensures r.status == 200 || r.status == 403 || r.status == 404
    ensures r.status == 200 ==> r.contentType.Some? && IsServedType(r.contentType.value)
    ensures r.status == 200 ==> exists path :: path in fs && fs[path] == r.body
    ensures r.status == 403 ==> r == Forbidden
    ensures r.status == 404 ==> r == NotFound
  {
    assert MimeTypes[".html"] == "text/html";
    if !req.hostAccepted then Fallback(ShellPath(dir), req.url, fs)
    else Serve(AssetRoot(dir), LookupPath(dir, req.url), ShellPath(dir), req.url, fs)
  }

  // ----- where the paths lie -----

  /** `dir` and "dist" joined with a slash, before normalisation. */
  function RootJoined(dir: string): string {
    JoinWith(PosixPath.NonEmpty([dir, "dist"]))
  }

  /** The joined root ends in the name "dist", and the asset root is its normal form. */
  lemma RootJoinedShape(dir: string)
    ensures PosixPath.IsName(Split(RootJoined(dir))[|Split(RootJoined(dir))| - 1])
    ensures AssetRoot(dir) == PosixPath.Normalize(RootJoined(dir))
  {
    RootJoinedForm(dir);
    assert Split("dist") == ["dist"] by { SplitSlashFree("dist"); }
    if dir != "" {
      SplitConcat(dir, "dist");
    }
  }

  /** The joined root is "dist" after `dir` and a slash, or "dist" alone when `dir` is empty. */
  lemma RootJoinedForm(dir: string)
    ensures RootJoined(dir) == if dir == "" then "dist" else dir + "/" + "dist"
  {
    assert [dir, "dist"][1..] == ["dist"] && ["dist"][1..] == [];
    if dir == "" {
      assert PosixPath.NonEmpty([dir, "dist"]) == ["dist"];
    } else {
      assert PosixPath.NonEmpty([dir, "dist"]) == [dir, "dist"];
      assert JoinWith([dir, "dist"]) == dir + "/" + JoinWith(["dist"]);
    }
  }

  /** A directory that climbs out of its last name has the asset root of its parent. */
  lemma ClimbingDirRoot(d: string, n: string)
    requires d != ""
    requires PosixPath.IsName(n) && SlashFree(n)
    ensures AssetRoot(d + "/" + n + "/..") == AssetRoot(d)
  {
    var up := d + "/" + n + "/..";
    RootJoinedForm(up);
    RootJoinedForm(d);
    ClimbingDirSpelled(d, n);
    PosixPath.ClimbOutNormalizes(d, n, "dist");
  }

  /** A non-empty third part is joined after the joined root and a slash. */
  lemma JoinedBelowRoot(dir: string, tail: string)
    requires tail != ""
    ensures JoinWith(PosixPath.NonEmpty([dir, "dist", tail])) == RootJoined(dir) + "/" + tail
  {
    PosixPath.JoinThree(dir, "dist", tail);
  }

  /** `join(__dirname, 'dist', tail)` is the normal form of the joined root, a slash and `tail`. */
  lemma JoinBelowRoot(dir: string, tail: string)
    requires tail != ""
    ensures PosixPath.Join([dir, "dist", tail]) == PosixPath.Normalize(RootJoined(dir) + "/" + tail)
  {
    JoinedBelowRoot(dir, tail);
  }

  /** A tail "/seg/seg/..." splits into an empty segment and its segments. */
  lemma RootedSplit(segs: seq<string>)
    requires |segs| >= 1
    requires forall i :: 0 <= i < |segs| ==> SlashFree(segs[i])
    ensures Split("/" + JoinWith(segs)) == [""] + segs
  {
    var s := "/" + JoinWith(segs);
    assert s[0] == '/' && s[1..] == JoinWith(segs);
    JoinThenSplit(segs);
  }

  /**
   * The traversal guard can never refuse: the file path of every target is
   * the asset root itself or lies below it after a slash, because the URL
   * parser has already removed every dot segment and `path.join` keeps the
   * normal form of the root as its prefix.
   */
  lemma LookupBelowRoot(dir: string, target: string)
    ensures AssetRoot(dir) <= LookupPath(dir, target)
    ensures |LookupPath(dir, target)| == |AssetRoot(dir)|
            || LookupPath(dir, target)[|AssetRoot(dir)|] == '/'
  {
    TailHasNoDots(target);
    JoinedBelowAssetRoot(dir, FilePath(UrlPath.Pathname(target)));
  }

  /** Joining a tail without dot segments to `dir` and "dist" stays at or below the asset root. */
  lemma JoinedBelowAssetRoot(dir: string, tail: string)
    requires tail != "" && NoDotSegments(Split(tail))
    ensures var root, path := AssetRoot(dir), PosixPath.Join([dir, "dist", tail]);
            root <= path && (|path| == |root| || path[|root|] == '/')
  {
    RootJoinedShape(dir);
    JoinBelowRoot(dir, tail);
    NormalFormBelow(RootJoined(dir), tail);
  }

  /** Normalising a tail without dot segments below `r` keeps the normal form of `r` as a prefix. */
  lemma NormalFormBelow(r: string, tail: string)
    requires PosixPath.IsName(Split(r)[|Split(r)| - 1])
    requires tail != "" && NoDotSegments(Split(tail))
    ensures var n, path := PosixPath.Normalize(r), PosixPath.Normalize(r + "/" + tail);
            n <= path && (|path| == |n| || path[|n|] == '/')
  {
    PosixPath.NormalizeBelow(r, tail);
    var rest := PosixPath.NonEmpty(Split(tail));
    SlashBelow(PosixPath.Normalize(r), JoinWith(rest), rest != [], tail[|tail| - 1] == '/');
  }

  /** The file path of a target splits into segments none of which is a dot segment. */
  lemma TailHasNoDots(target: string)
    ensures FilePath(UrlPath.Pathname(target)) != ""
    ensures NoDotSegments(Split(FilePath(UrlPath.Pathname(target))))
  {
    UrlPath.PathnameSegments(target);
    FileTailHasNoDots(UrlPath.Pathname(target), UrlPath.PathSegments(target));
  }

  /** The same for any pathname made of a slash and segments that are not dot segments. */
  lemma FileTailHasNoDots(pathname: string, segs: seq<string>)
    requires |segs| >= 1 && pathname == "/" + JoinWith(segs)
    requires forall i :: 0 <= i < |segs| ==> SlashFree(segs[i])
    requires NoDotSegments(segs)
    ensures FilePath(pathname) != ""
    ensures NoDotSegments(Split(FilePath(pathname)))
  {
    if pathname == "/" {
      IndexTailHasNoDots();
    } else {
      PlainTailHasNoDots(pathname, segs);
    }
  }

  lemma IndexTailHasNoDots()
    ensures FilePath("/") != ""
    ensures NoDotSegments(Split(FilePath("/")))
  {
    IndexTail();
    ShellNameIsName();
    NoDotsInPair("", ShellName);
  }

  lemma PlainTailHasNoDots(pathname: string, segs: seq<string>)
    requires |segs| >= 1 && pathname == "/" + JoinWith(segs) && pathname != "/"
    requires forall i :: 0 <= i < |segs| ==> SlashFree(segs[i])
    requires NoDotSegments(segs)
    ensures FilePath(pathname) == pathname
    ensures NoDotSegments(Split(pathname))
  {
    RootedSplit(segs);
    var parts := [""] + segs;
    forall i | 0 <= i < |parts| ensures parts[i] != "." && parts[i] != ".." {
      if i > 0 {
        assert parts[i] == segs[i - 1];
      }
    }
  }

  /** The root path asks for "index.html" directly under the asset root. */
  lemma IndexTail()
    ensures Split(FilePath("/")) == ["", ShellName]
  {
    ShellNameIsName();
    RootedSplit([ShellName]);
    assert JoinWith([ShellName]) == ShellName;
  }

  lemma ShellNameIsName()
    ensures PosixPath.IsName(ShellName) && SlashFree(ShellName)
  {
  }

  /** The shell is "index.html" directly below the asset root. */
  lemma ShellBelowRoot(dir: string)
    ensures ShellPath(dir) == AssetRoot(dir) + "/" + ShellName
  {
    ShellNameIsName();
    NamedFileBelowRoot(dir, ShellName);
  }

  /** A single name joined under the asset root comes right after it and a slash. */
  lemma NamedFileBelowRoot(dir: string, name: string)
    requires PosixPath.IsName(name) && SlashFree(name)
    ensures PosixPath.Join([dir, "dist", name]) == AssetRoot(dir) + "/" + name
  {
    JoinBelowRoot(dir, name);
    NameBelowAssetRoot(dir, name);
  }

  lemma NameBelowAssetRoot(dir: string, name: string)
    requires PosixPath.IsName(name) && SlashFree(name)
    ensures PosixPath.Normalize(RootJoined(dir) + "/" + name) == AssetRoot(dir) + "/" + name
  {
    RootJoinedShape(dir);
    NameBelow(RootJoined(dir), name);
  }

  /** A single name joined below `r` is appended to the normal form of `r`. */
  lemma NameBelow(r: string, name: string)
    requires PosixPath.IsName(Split(r)[|Split(r)| - 1])
    requires PosixPath.IsName(name) && SlashFree(name)
    ensures PosixPath.Normalize(r + "/" + name) == PosixPath.Normalize(r) + "/" + name
  {
    SplitSlashFree(name);
    assert PosixPath.NonEmpty([name]) == [name];
    PosixPath.NormalizeBelow(r, name);
  }

  /** A name with a slash in front, joined under the asset root, comes right after it and a slash. */
  lemma RootedFileBelowRoot(dir: string, name: string)
    requires PosixPath.IsName(name) && SlashFree(name)
    ensures PosixPath.Join([dir, "dist", "/" + name]) == AssetRoot(dir) + "/" + name
  {
    JoinBelowRoot(dir, "/" + name);
    RootedNameBelowAssetRoot(dir, name);
  }

  lemma RootedNameBelowAssetRoot(dir: string, name: string)
    requires PosixPath.IsName(name) && SlashFree(name)
    ensures PosixPath.Normalize(RootJoined(dir) + "/" + ("/" + name)) == AssetRoot(dir) + "/" + name
  {
    RootJoinedShape(dir);
    RootedNameBelow(RootJoined(dir), name);
  }

  lemma RootedNameBelow(r: string, name: string)
    requires PosixPath.IsName(Split(r)[|Split(r)| - 1])
    requires PosixPath.IsName(name) && SlashFree(name)
    ensures PosixPath.Normalize(r + "/" + ("/" + name)) == PosixPath.Normalize(r) + "/" + name
  {
    RootedName(name);
    PosixPath.NormalizeBelow(r, "/" + name);
  }

  lemma RootedName(name: string)
    requires PosixPath.IsName(name) && SlashFree(name)
    ensures Split("/" + name) == ["", name]
    ensures PosixPath.NonEmpty(Split("/" + name)) == [name] && JoinWith([name]) == name
    ensures ("/" + name)[|"/" + name| - 1] != '/'
  {
    SplitSlashFree(name);
    RootedSplit([name]);
    assert [""] + [name] == ["", name];
    assert ["", name][1..] == [name];
    assert [name][1..] == [];
  }

  /** The extension of a path ending in "/index.html" is ".html". */
  lemma IndexExtension(p: string)
    ensures PosixPath.Extname(p + "/" + ShellName) == ".html"
  {
    ShellNameIsName();
    PosixPath.ExtnameOfLastName(p, ShellName);
    IndexNameExtension();
  }

  lemma IndexNameExtension()
    ensures PosixPath.NameExtension(ShellName) == ".html"
  {
    var name := ShellName;
    assert name[5] == '.' && name[6] == 'h' && name[7] == 't' && name[8] == 'm' && name[9] == 'l';
    assert PosixPath.LastDot(name) == 5;
    assert name[5..] == ".html";
  }

  // ----- the handler's promises -----

  /** The root target, whatever query follows it, is looked up as the shell document. */
  lemma RootTargetIsShell(dir: string, suffix: string)
    requires suffix == [] || suffix[0] == '?' || suffix[0] == '#'
    ensures LookupPath(dir, "/" + suffix) == ShellPath(dir)
  {
    UrlPath.RootPathname(suffix);
    ShellNameIsName();
    RootedFileBelowRoot(dir, ShellName);
    ShellBelowRoot(dir);
  }

  /** The shell is always sent as text/html. */
  lemma ShellIsHtml(dir: string)
    ensures ContentType(PosixPath.Extname(ShellPath(dir))) == "text/html"
  {
    ShellBelowRoot(dir);
    IndexExtension(AssetRoot(dir));
  }

  /** The query string is never part of the file looked up. */
  lemma QueryNotLookedUp(dir: string, path: string, query: string)
    requires '?' !in path && '#' !in path
    ensures LookupPath(dir, path + "?" + query) == LookupPath(dir, path)
  {
    UrlPath.QueryIgnored(path, query);
  }

  /** The guard refuses with 403 before any read: the answer is the same whatever the files are. */
  lemma GuardReadsNothing(root: string, fullPath: string, shell: string, target: string, fs: FileSystem, other: FileSystem)
    requires !(root <= fullPath)
    ensures Serve(root, fullPath, shell, target, fs) == Forbidden
    ensures Serve(root, fullPath, shell, target, other) == Serve(root, fullPath, shell, target, fs)
  {
  }

  /**
   * Past the guard, the handler reads at most two files: the looked-up one
   * and the shell. File systems that agree on those two give the same answer.
   */
  lemma ServeReadsTwoFiles(root: string, fullPath: string, shell: string, target: string, fs: FileSystem, other: FileSystem)
    requires (fullPath in fs <==> fullPath in other) && (fullPath in fs ==> fs[fullPath] == other[fullPath])
    requires (shell in fs <==> shell in other) && (shell in fs ==> fs[shell] == other[shell])
    ensures Serve(root, fullPath, shell, target, fs) == Serve(root, fullPath, shell, target, other)
  {
  }

  /**
   * The fallback answers with the shell, as HTML, exactly when the raw target
   * has no '.' and the shell can be read; every other case is the 404.
   */
  lemma FallbackCases(shell: string, target: string, fs: FileSystem)
    ensures var r := Fallback(shell, target, fs);
            && (r == NotFound || r == Response(200, Some("text/html"), fs[shell]))
            && (r.status == 200 <==> '.' !in target && shell in fs)
  {
  }

  /** No request is ever answered 403: the guard always passes. */
  lemma NeverForbidden(dir: string, req: Request, fs: FileSystem)
    ensures Resolve(dir, req, fs).status != 403
  {
    LookupBelowRoot(dir, req.url);
  }

  /** An existing file is served with exactly its bytes and the type its extension names. */
  lemma ExistingFileServed(dir: string, req: Request, fs: FileSystem)
    requires req.hostAccepted && LookupPath(dir, req.url) in fs
    ensures var path := LookupPath(dir, req.url);
            Resolve(dir, req, fs) == Response(200, Some(ContentType(PosixPath.Extname(path))), fs[path])
  {
    LookupBelowRoot(dir, req.url);
  }

  /** A missing file with no '.' in the raw target falls back to the shell when it exists. */
  lemma ShellFallback(dir: string, req: Request, fs: FileSystem)
    requires !req.hostAccepted || LookupPath(dir, req.url) !in fs
    requires '.' !in req.url && ShellPath(dir) in fs
    ensures Resolve(dir, req, fs) == Response(200, Some("text/html"), fs[ShellPath(dir)])
  {
    LookupBelowRoot(dir, req.url);
  }

  /** A missing file with a '.' anywhere in the raw target, query included, is not found. */
  lemma DottedMissNotFound(dir: string, req: Request, fs: FileSystem)
    requires !req.hostAccepted || LookupPath(dir, req.url) !in fs
    requires '.' in req.url
    ensures Resolve(dir, req, fs) == NotFound
  {
    LookupBelowRoot(dir, req.url);
  }

  /** A missing file is not found when the shell is missing too. */
  lemma MissingShellNotFound(dir: string, req: Request, fs: FileSystem)
    requires !req.hostAccepted || LookupPath(dir, req.url) !in fs
    requires ShellPath(dir) !in fs
    ensures Resolve(dir, req, fs) == NotFound
  {
    LookupBelowRoot(dir, req.url);
  }

  /** The root target serves the shell as text/html, or is not found without it. */
  lemma RootServesShell(dir: string, suffix: string, fs: FileSystem)
    requires suffix == [] || suffix[0] == '?' || suffix[0] == '#'
    ensures Resolve(dir, Request("/" + suffix, true), fs)
            == if ShellPath(dir) in fs then Response(200, Some("text/html"), fs[ShellPath(dir)]) else NotFound
  {
    RootTargetIsShell(dir, suffix);
    ShellIsHtml(dir);
    LookupBelowRoot(dir, "/" + suffix);
  }

  /** A query string does not change how an existing file is served. */
  lemma QueryKeepsFile(dir: string, path: string, query: string, fs: FileSystem)
    requires '?' !in path && '#' !in path
    requires LookupPath(dir, path) in fs
    ensures Resolve(dir, Request(path + "?" + query, true), fs) == Resolve(dir, Request(path, true), fs)
  {
    QueryNotLookedUp(dir, path, query);
    ExistingFileServed(dir, Request(path + "?" + query, true), fs);
    ExistingFileServed(dir, Request(path, true), fs);
  }

  /**
   * An ordinary target, with or without a query, is looked up at the asset
   * root followed by its non-empty segments, and by the trailing slash it
   * ends in, if any: `/a/b.css?v=1` names `<root>/a/b.css`.
   */
  lemma OrdinaryTargetLookup(dir: string, p: string, query: string)
    requires UrlPath.PlainPath(p) && p != [] && p[0] != '/'
    ensures LookupPath(dir, "/" + p + "?" + query) == LookupPath(dir, "/" + p)
    ensures LookupPath(dir, "/" + p)
            == var below := AssetRoot(dir) + "/" + JoinWith(PosixPath.NonEmpty(Split(p)));
               if p[|p| - 1] == '/' then below + "/" else below
  {
    PlainLookup(dir, p, query);
    RootedJoin(dir, p);
  }

  /** The file path of an ordinary target is the target itself, query cut off. */
  lemma PlainLookup(dir: string, p: string, query: string)
    requires UrlPath.PlainPath(p) && p != [] && p[0] != '/'
    ensures LookupPath(dir, "/" + p + "?" + query) == LookupPath(dir, "/" + p)
    ensures LookupPath(dir, "/" + p) == PosixPath.Join([dir, "dist", "/" + p])
  {
    UrlPath.PlainPathname(p, query);
    assert FilePath(UrlPath.Pathname("/" + p)) == "/" + p;
  }

  /** `join(__dirname, 'dist', '/' + p)` for a plain path `p`. */
  lemma RootedJoin(dir: string, p: string)
    requires UrlPath.PlainPath(p) && p != [] && p[0] != '/'
    ensures PosixPath.Join([dir, "dist", "/" + p])
            == var below := AssetRoot(dir) + "/" + JoinWith(PosixPath.NonEmpty(Split(p)));
               if p[|p| - 1] == '/' then below + "/" else below
  {
    JoinBelowRoot(dir, "/" + p);
    RootedBelowAssetRoot(dir, p);
  }

  /** A plain path with a slash in front, normalised below the joined root, follows the asset root. */
  lemma RootedBelowAssetRoot(dir: string, p: string)
    requires UrlPath.PlainPath(p) && p != [] && p[0] != '/'
    ensures PosixPath.Normalize(RootJoined(dir) + "/" + ("/" + p))
            == var below := AssetRoot(dir) + "/" + JoinWith(PosixPath.NonEmpty(Split(p)));
               if p[|p| - 1] == '/' then below + "/" else below
  {
    RootJoinedShape(dir);
    RootedPathBelow(RootJoined(dir), p);
  }

  /** A plain path with a slash in front, normalised below `r`, follows the normal form of `r`. */
  lemma RootedPathBelow(r: string, p: string)
    requires PosixPath.IsName(Split(r)[|Split(r)| - 1])
    requires UrlPath.PlainPath(p) && p != [] && p[0] != '/'
    ensures PosixPath.Normalize(r + "/" + ("/" + p))
            == var below := PosixPath.Normalize(r) + "/" + JoinWith(PosixPath.NonEmpty(Split(p)));
               if p[|p| - 1] == '/' then below + "/" else below
  {
    var tail := "/" + p;
    RootedTail(p);
    PosixPath.NormalizeBelow(r, tail);
    assert tail[|tail| - 1] == p[|p| - 1];
  }

  /** A slash in front of a path that does not start with one adds a single empty segment. */
  lemma RootedTail(p: string)
    requires UrlPath.PlainPath(p) && p != [] && p[0] != '/'
    ensures Split("/" + p) == [""] + Split(p)
    ensures NoDotSegments(Split("/" + p))
    ensures PosixPath.NonEmpty(Split("/" + p)) == PosixPath.NonEmpty(Split(p)) != []
  {
    assert "/" + p == "" + "/" + p;
    SplitConcat("", p);
    var segs := Split(p);
    assert ([""] + segs)[1..] == segs;
    assert segs[0] != "";
  }

  /**
   * A target naming a single file, with or without a query, is looked up
   * directly under the asset root and, when that file exists, served with
   * its bytes and the type of its own extension.
   */
  lemma NamedFileServed(dir: string, name: string, query: string, fs: FileSystem)
    requires UrlPath.PlainPath(name) && SlashFree(name) && name != ""
    ensures LookupPath(dir, "/" + name + "?" + query) == AssetRoot(dir) + "/" + name
    ensures AssetRoot(dir) + "/" + name in fs ==>
              Resolve(dir, Request("/" + name + "?" + query, true), fs)
                == Response(200, Some(ContentType(PosixPath.NameExtension(name))), fs[AssetRoot(dir) + "/" + name])
  {
    SplitSlashFree(name);
    UrlPath.PlainPathname(name, query);
    assert FilePath(UrlPath.Pathname("/" + name)) == "/" + name;
    RootedFileBelowRoot(dir, name);
    PosixPath.ExtnameOfLastName(AssetRoot(dir), name);
    QueryNotLookedUp(dir, "/" + name, query);
    if AssetRoot(dir) + "/" + name in fs {
      ExistingFileServed(dir, Request("/" + name + "?" + query, true), fs);
    }
  }

  /** A cache-busting query is ignored: "/style.css?v=123" is the style sheet, sent as text/css. */
  lemma StyleSheetServed(dir: string, fs: FileSystem)
    ensures LookupPath(dir, "/style.css?v=123") == AssetRoot(dir) + "/" + "style.css"
    ensures AssetRoot(dir) + "/" + "style.css" in fs ==>
              Resolve(dir, Request("/style.css?v=123", true), fs)
                == Response(200, Some("text/css"), fs[AssetRoot(dir) + "/" + "style.css"])
  {
    StyleSheetName();
    NamedFileServed(dir, "style.css", "v=123", fs);
    StyleSheetTarget();
  }

  lemma StyleSheetName()
    ensures UrlPath.PlainPath("style.css") && SlashFree("style.css")
    ensures PosixPath.NameExtension("style.css") == ".css"
  {
    StyleSheetPlain();
    StyleSheetExtension();
  }

  lemma StyleSheetPlain()
    ensures UrlPath.PlainPath("style.css") && SlashFree("style.css")
  {
    StyleSheetChars();
    PlainName("style.css");
  }

  lemma StyleSheetChars()
    ensures SlashFree("style.css") && '?' !in "style.css" && '#' !in "style.css" && '\\' !in "style.css"
  {
    var name := "style.css";
    assert forall i :: 0 <= i < |name| ==> name[i] in "abcdefghijklmnopqrstuvwxyz.";
  }

  /** A long name with no slash, query, fragment or backslash is a plain path. */
  lemma PlainName(name: string)
    requires |name| > 6 && SlashFree(name) && '?' !in name && '#' !in name && '\\' !in name
    ensures UrlPath.PlainPath(name)
  {
    SplitSlashFree(name);
    UrlPath.LongSegmentPlain(name);
  }

  lemma StyleSheetExtension()
    ensures PosixPath.NameExtension("style.css") == ".css"
  {
    var name := "style.css";
    assert name[5] == '.' && name[6] == 'c' && name[7] == 's' && name[8] == 's';
    assert PosixPath.LastDot(name) == 5;
    assert name[5..] == ".css";
  }

  /**
   * A target that climbs out of a name is looked up as the name after it:
   * "/a/../b" names `<asset root>/b`, because the URL parser has already
   * removed the climb.
   */
  lemma ClimbedTargetLookup(dir: string, a: string, b: string)
    requires UrlPath.PlainName(a) && UrlPath.PlainName(b)
    ensures LookupPath(dir, "/" + a + "/../" + b) == AssetRoot(dir) + "/" + b
  {
    UrlPath.ClimbOutOfName(a, b);
    assert FilePath("/" + b) == "/" + b;
    RootedFileBelowRoot(dir, b);
  }

  /**
   * The host of a "//host/name" target takes no part in the lookup:
   * "//evil/x.css" names `<asset root>/x.css`.
   */
  lemma HostTargetLookup(dir: string, h: string, name: string)
    requires h != "" && SlashFree(h) && '?' !in h && '#' !in h && '\\' !in h
    requires UrlPath.PlainName(name)
    ensures LookupPath(dir, "//" + h + "/" + name) == AssetRoot(dir) + "/" + name
  {
    SplitSlashFree(name);
    UrlPath.AuthoritySkipped(h, name);
    assert FilePath("/" + name) == "/" + name;
    RootedFileBelowRoot(dir, name);
  }

  /** "/a/../b.css" is looked up as `<asset root>/b.css`. */
  lemma ClimbedStyleSheetLookup(dir: string)
    ensures LookupPath(dir, "/a/../b.css") == AssetRoot(dir) + "/" + "b.css"
  {
    ClimbedNames();
    assert "/" + "a" + "/../" + "b.css" == "/a/../b.css";
    ClimbedTargetLookup(dir, "a", "b.css");
  }

  lemma ClimbedNames()
    ensures UrlPath.PlainName("a") && UrlPath.PlainName("b.css")
  {
    var name := "b.css";
    assert forall i :: 0 <= i < |name| ==> name[i] in "bcs.";
    assert !UrlPath.IsSingleDot(name) && !UrlPath.IsDoubleDot(name) by {
      assert |name| == 5 && name[0] == 'b';
    }
  }

  /**
   * A '.' in the query alone defeats the fallback: "/dashboard?v=1.2" is not
   * found even when the shell exists, although "/dashboard" is served the shell.
   */
  lemma QueryDotDefeatsFallback(dir: string, path: string, query: string, fs: FileSystem)
    requires '?' !in path && '#' !in path && '.' in query
    requires LookupPath(dir, path) !in fs
    ensures Resolve(dir, Request(path + "?" + query, true), fs) == NotFound
  {
    QueryNotLookedUp(dir, path, query);
    DotInQuery(path, query);
    DottedMissNotFound(dir, Request(path + "?" + query, true), fs);
  }

  /** A '.' in the query is a '.' in the whole target. */
  lemma DotInQuery(path: string, query: string)
    requires '.' in query
    ensures '.' in path + "?" + query
  {
    var k :| 0 <= k < |query| && query[k] == '.';
    assert (path + "?" + query)[|path| + 1 + k] == '.';
  }

  // ----- solver helpers -----
  // Each lemma below states a single re-association of strings or sequences,
  // or a single index fact, that the proofs above call to keep each of their
  // steps small. They add nothing to the model and can be skipped.

  lemma ClimbingDirSpelled(d: string, n: string)
    ensures d + "/" + n + "/.." + "/" + "dist" == d + "/" + (n + "/../" + "dist")
  {
  }

  lemma NoDotsInPair(a: string, b: string)
    requires a != "." && a != ".." && PosixPath.IsName(b)
    ensures NoDotSegments([a, b])
  {
  }

  lemma SlashBelow(root: string, more: string, some: bool, trailing: bool)
    ensures var below := if some then root + "/" + more else root;
            var path := if trailing then below + "/" else below;
            root <= path && (|path| == |root| || path[|root|] == '/')
  {
  }

  lemma StyleSheetTarget()
    ensures "/" + "style.css" + "?" + "v=123" == "/style.css?v=123"
  {
  }
}

=== FILE: task_form.dfy ===
/**
 * The create/edit form (src/components/TaskForm.tsx): four field values,
 * the `editingTask` it is rendered with, the effect that loads a task into
 * the fields, and the submit handler.
 */
module TaskFormState {
  import opened Wrappers
  import opened Tasks

  class TaskForm {
    var title: string
    var description: string
    var status: Status
    var priority: Priority
    /** The `editingTask` prop of the latest render. */
    var editingTask: Option<Task>

    /** The fields hold a new task's defaults. */
    predicate Blank()
      reads this
    {
      title == "" && description == "" && status == Pending && priority == Medium
    }

    /** The form of the first render, with no task being edited. */
    constructor ()
      ensures Blank() && editingTask == None
    {
      title, description, status, priority := "", "", Pending, Medium;
      editingTask := None;
    }

    /**
     * A render with a new `editingTask` runs the effect: a task is copied
     * into all four fields; no task leaves the fields as they were.
     */
    method ReceiveEditingTask(editing: Option<Task>)
      modifies this
      ensures editingTask == editing
      ensures editing.Some? ==>
                && title == editing.value.title && description == editing.value.description
                && status == editing.value.status && priority == editing.value.priority
      ensures editing.None? ==>
                && title == old(title) && description == old(description)
                && status == old(status) && priority == old(priority)
    {
      editingTask := editing;
      if editing.Some? {
        title := editing.value.title;
        description := editing.value.description;
        status := editing.value.status;
        priority := editing.value.priority;
      }
    }

    /** Typing in the title input. */
    method EditTitle(value: string)
      modifies this`title
      ensures title == value
    {
      title := value;
    }

    /** Typing in the description textarea. */
    method EditDescription(value: string)
      modifies this`description
      ensures description == value
    {
      description := value;
    }

    /** Choosing a status: the select only yields the value of one of its three options. */
    method SelectStatus(value: string)
      requires ParseStatus(value).Some?
      modifies this`status
      ensures StatusValue(status) == value
    {
      status := ParseStatus(value).value;
    }

    /** Choosing a priority: the select only yields the value of one of its three options. */
    method SelectPriority(value: string)
      requires ParsePriority(value).Some?
      modifies this`priority
      ensures PriorityValue(priority) == value
    {
      priority := ParsePriority(value).value;
    }

    /**
     * Submitting the form. The title input is `required`, so with an empty
     * title the browser blocks the submit and nothing happens. Otherwise the
     * four current values are emitted; in create mode the fields return to
     * their defaults, in edit mode they stay.
     */
    method Submit() returns (emitted: Option<Draft>)
      modifies this
      ensures old(title) == "" ==> emitted == None && unchanged(this)
      ensures old(title) != "" ==>
                emitted == Some(Draft(old(title), old(description), old(status), old(priority)))
      ensures old(title) != "" && editingTask.None? ==> Blank()
      ensures old(title) != "" && editingTask.Some? ==>
                && title == old(title) && description == old(description)
                && status == old(status) && priority == old(priority)
      ensures editingTask == old(editingTask)
    {
      if title == "" {
        return None;
      }
      emitted := Some(Draft(title, description, status, priority));
      if editingTask.None? {
        title, description, status, priority := "", "", Pending, Medium;
      }
    }
  }

  /**
   * Cancelling an edit only clears the prop, so the form keeps the task's
   * values, now in create mode.
   */
  method CancelKeepsFields(task: Task) returns (form: TaskForm)
    ensures form.editingTask == None
    ensures form.title == task.title && form.description == task.description
    ensures form.status == task.status && form.priority == task.priority
  {
    form := new TaskForm();
    form.ReceiveEditingTask(Some(task));
    form.ReceiveEditingTask(None);
  }
}

=== FILE: tasks.dfy ===
/**
 * The task rows the UI holds and the pure list updates its handlers apply
 * (src/App.tsx:44, src/App.tsx:64, src/App.tsx:79), with the option values
 * of the form's two selects (src/components/TaskForm.tsx:96-98, 111-113).
 */
module Tasks {
  import opened Wrappers

  datatype Status = Pending | InProgress | Completed

  datatype Priority = Low | Medium | High

  /** A row of the store's `tasks` table; the id and the timestamps are set by the store. */
  datatype Task = Task(
    id: string,
    title: string,
    description: string,
    status: Status,
    priority: Priority,
    createdAt: string,
    updatedAt: string)

  /** What the form submits: the four editable fields of a task. */
  datatype Draft = Draft(title: string, description: string, status: Status, priority: Priority)

  /** The `value` of each status option, which is also the stored text. */
  function StatusValue(s: Status): string {
    match s
    case Pending => "pending"
    case InProgress => "in_progress"
    case Completed => "completed"
  }

  /** The status an option value stands for. */
  function ParseStatus(v: string): (r: Option<Status>)
    ensures r.Some? ==> StatusValue(r.value) == v
    ensures r.None? ==> forall s: Status :: StatusValue(s) != v
  {
    if v == "pending" then Some(Pending)
    else if v == "in_progress" then Some(InProgress)
    else if v == "completed" then Some(Completed)
    else None
  }

  /** The `value` of each priority option, which is also the stored text. */
  function PriorityValue(p: Priority): string {
    match p
    case Low => "low"
    case Medium => "medium"
    case High => "high"
  }

  /** The priority an option value stands for. */
  function ParsePriority(v: string): (r: Option<Priority>)
    ensures r.Some? ==> PriorityValue(r.value) == v
    ensures r.None? ==> forall p: Priority :: PriorityValue(p) != v
  {
    if v == "low" then Some(Low)
    else if v == "medium" then Some(Medium)
    else if v == "high" then Some(High)
    else None
  }

  /** Every status has its own option value. */
  lemma StatusRoundTrip(s: Status)
    ensures ParseStatus(StatusValue(s)) == Some(s)
  {
  }

  /** Every priority has its own option value. */
  lemma PriorityRoundTrip(p: Priority)
    ensures ParsePriority(PriorityValue(p)) == Some(p)
  {
  }

  /** No two tasks of the list share an id (the store's primary key). */
  predicate UniqueIds(ts: seq<Task>) {
    forall i, j :: 0 <= i < j < |ts| ==> ts[i].id != ts[j].id
  }

  predicate HasId(ts: seq<Task>, id: string) {
    exists i :: 0 <= i < |ts| && ts[i].id == id
  }

  /**
   * `tasks.map(t => t.id === row.id ? row : t)`: the length and the order
   * stay; each position holds `row` if its task had `row.id`, and its own
   * task otherwise.
   */
  function ReplaceById(ts: seq<Task>, row: Task): (r: seq<Task>)
    ensures |r| == |ts|
    ensures forall i :: 0 <= i < |ts| ==> r[i] == if ts[i].id == row.id then row else ts[i]
  {
    if ts == [] then []
    else [if ts[0].id == row.id then row else ts[0]] + ReplaceById(ts[1..], row)
  }

  /** `tasks.filter(t => t.id !== id)`. */
  function RemoveById(ts: seq<Task>, id: string): (r: seq<Task>)
    ensures |r| <= |ts|
    ensures forall i :: 0 <= i < |r| ==> r[i] in ts && r[i].id != id
  {
    if ts == [] then []
    else (if ts[0].id == id then [] else [ts[0]]) + RemoveById(ts[1..], id)
  }

  /** Replacing keeps every id in its place, so ids stay unique. */
  lemma ReplaceKeepsIds(ts: seq<Task>, row: Task)
    ensures |ReplaceById(ts, row)| == |ts|
    ensures forall i :: 0 <= i < |ts| ==> ReplaceById(ts, row)[i].id == ts[i].id
    ensures UniqueIds(ts) ==> UniqueIds(ReplaceById(ts, row))
  {
  }

  /** Replacing with a row whose id is absent changes nothing. */
  lemma ReplaceAbsent(ts: seq<Task>, row: Task)
    requires !HasId(ts, row.id)
    ensures ReplaceById(ts, row) == ts
  {
  }

  /** Replacing twice with the same row is replacing once. */
  lemma ReplaceIdempotent(ts: seq<Task>, row: Task)
    ensures ReplaceById(ReplaceById(ts, row), row) == ReplaceById(ts, row)
  {
  }

  /** Removal keeps exactly the tasks with other ids, each as often as before. */
  lemma {:induction false} RemoveByIdCounts(ts: seq<Task>, id: string)
    ensures forall t :: multiset(RemoveById(ts, id))[t] == if t.id == id then 0 else multiset(ts)[t]
  {
    if ts != [] {
      RemoveByIdCounts(ts[1..], id);
      assert ts == [ts[0]] + ts[1..];
      assert multiset(ts) == multiset{ts[0]} + multiset(ts[1..]);
    }
  }

  /** Removal works element by element, so it keeps the order of what it keeps. */
  lemma {:induction false} RemoveByIdAppend(a: seq<Task>, b: seq<Task>, id: string)
    ensures RemoveById(a + b, id) == RemoveById(a, id) + RemoveById(b, id)
  {
    if a == [] {
      assert a + b == b;
    } else {
      var ab := a + b;
      assert ab[0] == a[0] && ab[1..] == a[1..] + b;
      RemoveByIdAppend(a[1..], b, id);
      var head: seq<Task> := if a[0].id == id then [] else [a[0]];
      var x, y := RemoveById(a[1..], id), RemoveById(b, id);
      assert RemoveById(ab, id) == head + RemoveById(a[1..] + b, id);
      assert head + (x + y) == (head + x) + y;
    }
  }

  /** Removing an id that no task has changes nothing. */
  lemma {:induction false} RemoveAbsent(ts: seq<Task>, id: string)
    requires !HasId(ts, id)
    ensures RemoveById(ts, id) == ts
  {
    if ts != [] {
      assert !HasId(ts[1..], id) by {
        forall i | 0 <= i < |ts[1..]| ensures ts[1..][i].id != id {
          assert ts[1..][i] == ts[i + 1];
        }
      }
      RemoveAbsent(ts[1..], id);
      assert ts[0].id != id;
      assert ts == [ts[0]] + ts[1..];
    }
  }

  /** Removal keeps ids unique. */
  lemma {:induction false} RemoveKeepsUnique(ts: seq<Task>, id: string)
    requires UniqueIds(ts)
    ensures UniqueIds(RemoveById(ts, id))
  {
    if ts != [] {
      var rest := RemoveById(ts[1..], id);
      assert UniqueIds(ts[1..]) by {
        forall i, j | 0 <= i < j < |ts[1..]| ensures ts[1..][i].id != ts[1..][j].id {
          assert ts[1..][i] == ts[i + 1] && ts[1..][j] == ts[j + 1];
        }
      }
      RemoveKeepsUnique(ts[1..], id);
      if ts[0].id != id {
        forall k | 0 <= k < |rest| ensures rest[k].id != ts[0].id {
          assert rest[k] in ts[1..];
          var m :| 0 <= m < |ts[1..]| && ts[1..][m] == rest[k];
          assert ts[m + 1] == rest[k];
        }
      }
    }
  }

  /** Prepending a row with a fresh id keeps ids unique. */
  lemma PrependKeepsUnique(ts: seq<Task>, row: Task)
    requires UniqueIds(ts) && !HasId(ts, row.id)
    ensures UniqueIds([row] + ts)
  {
    var r := [row] + ts;
    forall i, j | 0 <= i < j < |r| ensures r[i].id != r[j].id {
      assert r[j] == ts[j - 1];
      if i > 0 {
        assert r[i] == ts[i - 1];
      }
    }
  }

  /** Deleting a freshly created task gives back the list it was prepended to. */
  lemma DeleteUndoesCreate(ts: seq<Task>, row: Task)
    requires !HasId(ts, row.id)
    ensures RemoveById([row] + ts, row.id) == ts
  {
    RemoveByIdAppend([row], ts, row.id);
    RemoveAbsent(ts, row.id);
    assert RemoveById([row], row.id) == [];
  }
}

=== FILE: url_path.dfy ===
/**
 * The pathname that `new URL(target, "http://" + host)` gives for an HTTP
 * request target (server.js:32), following the path states of the WHATWG URL
 * Standard for a special scheme: the query and fragment are cut off,
 * backslashes count as slashes, the authority of a `//host` target is skipped,
 * and dot segments are removed as the segments are read.
 */
module UrlPath {
  import opened Segments

  /** Everything before the first '?' (query) or '#' (fragment). */
  function PathPart(target: string): (p: string)
    ensures p <= target
    ensures '?' !in p && '#' !in p
    ensures |p| < |target| ==> target[|p|] == '?' || target[|p|] == '#'
  {
    if |target| == 0 || target[0] == '?' || target[0] == '#' then ""
    else [target[0]] + PathPart(target[1..])
  }

  /** In a special URL a backslash separates segments like a slash. */
  function Slashes(s: string): string {
    seq(|s|, i requires 0 <= i < |s| => if s[i] == '\\' then '/' else s[i])
  }

  function DropSlashes(p: string): string {
    if |p| > 0 && p[0] == '/' then DropSlashes(p[1..]) else p
  }

  /** The rest after a host name and the slash that ends it. */
  function AfterHost(p: string): string {
    if |p| == 0 then ""
    else if p[0] == '/' then p[1..]
    else AfterHost(p[1..])
  }

  /**
   * What the path state reads: a leading slash is consumed; a target that
   * starts with two slashes names an authority first (any run of slashes,
   * then the host), and the path follows it; a target without a leading
   * slash is resolved against the base path, taken to be "/" (the Host
   * header is assumed to carry no path), which leaves nothing of it.
   */
  function PathInput(p: string): string {
    if |p| >= 2 && p[0] == '/' && p[1] == '/' then AfterHost(DropSlashes(p))
    else if |p| >= 1 && p[0] == '/' then p[1..]
    else p
  }

  predicate IsSingleDot(seg: string) {
    seg in {".", "%2e", "%2E"}
  }

  predicate IsDoubleDot(seg: string) {
    seg in {"..", ".%2e", ".%2E", "%2e.", "%2E.", "%2e%2e", "%2e%2E", "%2E%2e", "%2E%2E"}
  }

  /** A segment that may stand in a parsed path. */
  predicate Plain(seg: string) {
    SlashFree(seg) && !IsSingleDot(seg) && !IsDoubleDot(seg)
  }

  /**
   * The path state over the remaining segments `segs`, with `path` read so
   * far: a double-dot segment removes the last segment, a single-dot segment
   * is skipped, any other segment is appended; a dot segment that ends the
   * input leaves an empty last segment (the path ends in a slash).
   */
  function Walk(path: seq<string>, segs: seq<string>): (r: seq<string>)
    requires forall i :: 0 <= i < |path| ==> Plain(path[i])
    requires forall i :: 0 <= i < |segs| ==> SlashFree(segs[i])
    ensures |segs| >= 1 ==> |r| >= 1
    ensures forall i :: 0 <= i < |r| ==> Plain(r[i])
    decreases |segs|
  {
    if |segs| == 0 then path
    else
      var seg := segs[0];
      var tail: seq<string> := if |segs| == 1 then [""] else [];
      var next :=
        if IsDoubleDot(seg) then (if |path| == 0 then [] else path[..|path| - 1]) + tail
        else if IsSingleDot(seg) then path + tail
        else path + [seg];
      Walk(next, segs[1..])
  }

  /** The segments of the parsed path: at least one, none of them a dot segment. */
  function PathSegments(target: string): (segs: seq<string>)
    ensures |segs| >= 1
    ensures forall i :: 0 <= i < |segs| ==> Plain(segs[i])
  {
    Walk([], Split(PathInput(Slashes(PathPart(target)))))
  }

  /** `new URL(target, base).pathname`. */
  function Pathname(target: string): string {
    "/" + JoinWith(PathSegments(target))
  }

  /** Cutting the path part stops at a query or fragment. */
  lemma {:induction false} PathPartStops(a: string, b: string)
    requires '?' !in a && '#' !in a
    requires b == [] || b[0] == '?' || b[0] == '#'
    ensures PathPart(a + b) == a
  {
    if |a| > 0 {
      assert (a + b)[1..] == a[1..] + b;
      PathPartStops(a[1..], b);
      assert a == [a[0]] + a[1..];
    }
  }

  /** The query string never takes part in the pathname. */
  lemma QueryIgnored(path: string, query: string)
    requires '?' !in path && '#' !in path
    ensures Pathname(path + "?" + query) == Pathname(path)
  {
    PathPartStops(path, "?" + query);
    PathPartStops(path, "");
    assert path + "?" + query == path + ("?" + query);
    assert path + "" == path;
  }

  /** The pathname is a slash followed by its plain segments, so no dot segment survives parsing. */
  lemma PathnameSegments(target: string)
    ensures Pathname(target)[0] == '/'
    ensures Split(Pathname(target)[1..]) == PathSegments(target)
    ensures NoDotSegments(PathSegments(target))
  {
    var segs := PathSegments(target);
    assert Pathname(target)[1..] == JoinWith(segs);
    JoinThenSplit(segs);
  }

  /** A bare root, with or without a query, parses to "/". */
  lemma RootPathname(suffix: string)
    requires suffix == [] || suffix[0] == '?' || suffix[0] == '#'
    ensures Pathname("/" + suffix) == "/"
  {
    PathPartStops("/", suffix);
    assert Slashes("/") == "/";
    assert PathInput("/") == "";
    assert Split("") == [""];
    assert Walk([], [""]) == Walk([""], []) == [""];
    assert PathSegments("/" + suffix) == [""];
  }

  /** Reading plain segments keeps each of them, in order. */
  lemma {:induction false} WalkPlain(path: seq<string>, segs: seq<string>)
    requires forall i :: 0 <= i < |path| ==> Plain(path[i])
    requires forall i :: 0 <= i < |segs| ==> Plain(segs[i]) && SlashFree(segs[i])
    ensures Walk(path, segs) == path + segs
    decreases |segs|
  {
    if |segs| == 0 {
      assert path + segs == path;
    } else {
      WalkPlain(path + [segs[0]], segs[1..]);
      assert path + [segs[0]] + segs[1..] == path + segs;
    }
  }

  /**
   * A double-dot segment removes the segment read just before it: reading
   * `seg` and then `..` (in any of its spellings) leaves the path as it was,
   * or ends it in a slash when nothing follows.
   */
  lemma {:induction false} DoubleDotRemoves(path: seq<string>, seg: string, dd: string, segs: seq<string>)
    requires forall i :: 0 <= i < |path| ==> Plain(path[i])
    requires Plain(seg) && IsDoubleDot(dd)
    requires forall i :: 0 <= i < |segs| ==> SlashFree(segs[i])
    ensures Walk(path, [seg, dd] + segs) == if segs == [] then path + [""] else Walk(path, segs)
  {
    var s := [seg, dd] + segs;
    var t := [dd] + segs;
    var p1 := path + [seg];
    assert s[0] == seg && s[1..] == t;
    assert t[0] == dd && t[1..] == segs;
    assert p1[..|p1| - 1] == path;
    if segs == [] {
      assert |t| == 1;
      assert Walk(p1, t) == Walk(path + [""], []);
    } else {
      assert |t| != 1;
      assert p1[..|p1| - 1] + [] == path;
      assert Walk(p1, t) == Walk(path, segs);
    }
  }

  /**
   * A single-dot segment (in any of its spellings) is skipped, or ends the
   * path in a slash when nothing follows.
   */
  lemma SingleDotSkipped(path: seq<string>, sd: string, segs: seq<string>)
    requires forall i :: 0 <= i < |path| ==> Plain(path[i])
    requires IsSingleDot(sd)
    requires forall i :: 0 <= i < |segs| ==> SlashFree(segs[i])
    ensures Walk(path, [sd] + segs) == if segs == [] then path + [""] else Walk(path, segs)
  {
    var t := [sd] + segs;
    assert t[0] == sd && t[1..] == segs;
    if segs != [] {
      assert path + [] == path;
    }
  }

  /** A segment longer than any spelling of a dot segment is plain when it has no slash. */
  lemma LongSegmentPlain(seg: string)
    requires |seg| > 6 && SlashFree(seg)
    ensures Plain(seg)
  {
  }

  /** A path with no query, fragment or backslash, all of whose segments are plain. */
  predicate PlainPath(p: string) {
    && '?' !in p && '#' !in p && '\\' !in p
    && forall i :: 0 <= i < |Split(p)| ==> Plain(Split(p)[i])
  }

  /**
   * An ordinary target is its own pathname: "/" followed by a plain path
   * (not itself starting with a slash, which would name a host) parses to
   * exactly those segments, with any query cut off.
   */
  lemma PlainPathname(p: string, query: string)
    requires PlainPath(p)
    requires p == [] || p[0] != '/'
    ensures PathSegments("/" + p) == Split(p)
    ensures Pathname("/" + p) == "/" + p
    ensures Pathname("/" + p + "?" + query) == "/" + p
  {
    var t := "/" + p;
    assert '?' !in t && '#' !in t;
    PathPartStops(t, "");
    assert t + "" == t;
    assert Slashes(t) == t;
    assert PathInput(t) == p;
    WalkPlain([], Split(p));
    SplitThenJoin(p);
    QueryIgnored(t, query);
  }

  /** A non-empty segment that the parser keeps and that holds no query, fragment or backslash. */
  predicate PlainName(seg: string) {
    seg != "" && Plain(seg) && '?' !in seg && '#' !in seg && '\\' !in seg
  }

  /**
   * Climbing out of a name is undone at once: "/a/../b" parses to "/b"
   * (so "/a/../b.css" is "/b.css").
   */
  lemma ClimbOutOfName(a: string, b: string)
    requires PlainName(a) && PlainName(b)
    ensures PathSegments("/" + a + "/../" + b) == [b]
    ensures Pathname("/" + a + "/../" + b) == "/" + b
  {
    ClimbOutInput(a, b);
    ClimbOutSplit(a, b);
    assert [a, "..", b] == [a, ".."] + [b];
    DoubleDotRemoves([], a, "..", [b]);
    WalkPlain([], [b]);
    assert [] + [b] == [b];
    assert PathSegments("/" + a + "/../" + b) == Walk([], [b]);
    assert JoinWith([b]) == b;
  }

  lemma ClimbOutInput(a: string, b: string)
    requires PlainName(a) && PlainName(b)
    ensures PathInput(Slashes(PathPart("/" + a + "/../" + b))) == a + "/" + (".." + "/" + b)
  {
    var u := a + "/" + (".." + "/" + b);
    var t := "/" + u;
    assert t == "/" + a + "/../" + b;
    assert '?' !in t && '#' !in t && '\\' !in t;
    PathPartStops(t, "");
    assert t + "" == t;
    assert Slashes(t) == t;
    assert t[1] == a[0] && a[0] != '/';
    assert PathInput(t) == t[1..] == u;
  }

  lemma ClimbOutSplit(a: string, b: string)
    requires PlainName(a) && PlainName(b)
    ensures Split(a + "/" + (".." + "/" + b)) == [a, "..", b]
  {
    SplitConcat(a, ".." + "/" + b);
    SplitConcat("..", b);
    SplitSlashFree(a);
    SplitSlashFree("..");
    SplitSlashFree(b);
    assert [a] + ([".."] + [b]) == [a, "..", b];
  }

  /**
   * A target that starts with two slashes names a host first: "//h/p" parses
   * to the pathname "/p", and the host `h` takes no part in it.
   */
  lemma AuthoritySkipped(h: string, p: string)
    requires h != "" && SlashFree(h) && '?' !in h && '#' !in h && '\\' !in h
    requires PlainPath(p)
    ensures PathSegments("//" + h + "/" + p) == Split(p)
    ensures Pathname("//" + h + "/" + p) == "/" + p
  {
    AuthorityInput(h, p);
    WalkPlain([], Split(p));
    assert [] + Split(p) == Split(p);
    SplitThenJoin(p);
  }

  lemma AuthorityInput(h: string, p: string)
    requires h != "" && SlashFree(h) && '?' !in h && '#' !in h && '\\' !in h
    requires '?' !in p && '#' !in p && '\\' !in p
    ensures PathInput(Slashes(PathPart("//" + h + "/" + p))) == p
  {
    var u := h + "/" + p;
    assert "//" + h + "/" + p == "//" + u;
    assert '?' !in u && '#' !in u && '\\' !in u;
    PassesThrough("//" + u);
    DropTwoSlashes(u);
    AfterHostSkips(h, p);
  }

  /** A target with no query, fragment or backslash is read as it is written. */
  lemma PassesThrough(t: string)
    requires '?' !in t && '#' !in t && '\\' !in t
    ensures Slashes(PathPart(t)) == t
  {
    PathPartStops(t, "");
    assert t + "" == t;
  }

  lemma DropTwoSlashes(u: string)
    requires u != [] && u[0] != '/'
    ensures PathInput("//" + u) == AfterHost(u)
  {
    var t := "//" + u;
    var v := "/" + u;
    assert t[0] == '/' && t[1] == '/';
    assert t[1..] == v && v[0] == '/' && v[1..] == u;
    assert DropSlashes(u) == u;
    assert DropSlashes(v) == u;
    assert DropSlashes(t) == u;
  }

  /** The host ends at the first slash; what follows it is the path. */
  lemma {:induction false} AfterHostSkips(h: string, p: string)
    requires SlashFree(h)
    ensures AfterHost(h + "/" + p) == p
  {
    if h == [] {
      assert h + "/" + p == "/" + p;
    } else {
      assert (h + "/" + p)[0] == h[0];
      assert (h + "/" + p)[1..] == h[1..] + "/" + p;
      AfterHostSkips(h[1..], p);
    }
  }

  /** A backslash separates segments exactly as a slash does: "/a\\b" parses like "/a/b". */
  lemma BackslashSeparates(a: string, b: string)
    requires '?' !in a && '#' !in a && '\\' !in a
    requires '?' !in b && '#' !in b && '\\' !in b
    ensures Pathname("/" + a + "\\" + b) == Pathname("/" + a + "/" + b)
  {
    var y := "/" + a + "/" + b;
    assert '?' !in y && '#' !in y && '\\' !in y;
    PassesThrough(y);
    BackslashRead(a, b);
  }

  lemma BackslashRead(a: string, b: string)
    requires '?' !in a && '#' !in a && '\\' !in a
    requires '?' !in b && '#' !in b && '\\' !in b
    ensures Slashes(PathPart("/" + a + "\\" + b)) == "/" + a + "/" + b
  {
    var x := "/" + a + "\\" + b;
    assert '?' !in x && '#' !in x;
    PathPartStops(x, "");
    assert x + "" == x;
    SlashesConcat("/" + a + "\\", b);
    SlashesConcat("/" + a, "\\");
    assert Slashes("\\") == "/";
    assert Slashes("/" + a) == "/" + a;
    assert Slashes(b) == b;
  }

  /** A prefix without '?' or '#' is kept whole in the path part. */
  lemma {:induction false} PathPartPrefix(a: string, b: string)
    requires '?' !in a && '#' !in a
    ensures PathPart(a + b) == a + PathPart(b)
  {
    if |a| > 0 {
      assert (a + b)[0] == a[0];
      assert (a + b)[1..] == a[1..] + b;
      PathPartPrefix(a[1..], b);
      assert a == [a[0]] + a[1..];
    } else {
      assert a + b == b;
    }
  }

  lemma SlashesConcat(a: string, b: string)
    ensures Slashes(a + b) == Slashes(a) + Slashes(b)
  {
  }

  /**
   * A target that starts by climbing above the root is pinned to it:
   * "/../x" names the same path as "/x" (so "/../secret.env" is "/secret.env").
   */
  lemma ClimbIsPinned(rest: string)
    requires rest == [] || (rest[0] != '/' && rest[0] != '\\')
    ensures Pathname("/../" + rest) == Pathname("/" + rest)
  {
    var q := Slashes(PathPart(rest));
    ClimbInput(rest);
    BareInput(rest);
    ClimbWalk(q);
  }

  lemma ClimbInput(rest: string)
    requires rest == [] || (rest[0] != '/' && rest[0] != '\\')
    ensures PathInput(Slashes(PathPart("/../" + rest))) == "../" + Slashes(PathPart(rest))
  {
    LeadInput("/../", rest);
    var q := Slashes(PathPart(rest));
    var p := "/../" + q;
    assert p[0] == '/' && p[1] == '.';
    assert PathInput(p) == p[1..];
    assert p[1..] == "../" + q;
  }

  lemma BareInput(rest: string)
    requires rest == [] || (rest[0] != '/' && rest[0] != '\\')
    ensures PathInput(Slashes(PathPart("/" + rest))) == Slashes(PathPart(rest))
  {
    LeadInput("/", rest);
    var q := Slashes(PathPart(rest));
    assert ("/" + q)[1..] == q;
  }

  /** A slash-led prefix of a target passes through the path part unchanged. */
  lemma LeadInput(lead: string, rest: string)
    requires lead == "/../" || lead == "/"
    requires rest == [] || (rest[0] != '/' && rest[0] != '\\')
    ensures Slashes(PathPart(lead + rest)) == lead + Slashes(PathPart(rest))
    ensures Slashes(PathPart(rest)) == [] || Slashes(PathPart(rest))[0] != '/'
  {
    PathPartPrefix(lead, rest);
    var p := PathPart(rest);
    SlashesConcat(lead, p);
    assert Slashes(lead) == lead;
    if p != [] {
      assert p[0] == rest[0];
    }
  }

  lemma ClimbWalk(q: string)
    ensures Walk([], Split("../" + q)) == Walk([], Split(q))
  {
    assert "../" + q == ".." + "/" + q;
    SplitConcat("..", q);
    SplitSlashFree("..");
    var segs := Split(q);
    assert ([".."] + segs)[0] == "..";
    assert ([".."] + segs)[1..] == segs;
  }
}

=== FILE: wrappers.dfy ===
/** The optional value used wherever the source has `null`, `undefined` or a caught exception. */
module Wrappers {

  datatype Option<+T> = None | Some(value: T) {

    /** The value, or `default` when there is none (JavaScript's `x || default`). */
    function GetOr(default: T): T {
      match this
      case Some(v) => v
      case None => default
    }
  }
}
